=== FILE: README.md ===
# Water-consumption dashboard — a Dafny model of its data core

The application loads a table of country-year water statistics and shows it in
two places. The dashboard filters the table by a selection of at most five
countries, a year range and a scarcity level, and projects the filtered rows
into a trend line, bar and sector charts for the upper year of the range, a
radar of environmental factors and four summary figures. The prediction page
takes one country's rows as history and asks a prediction service for every
year after the latest one up to a target year. It then assembles one chart
series: history, a baseline point, one forecast point per year, and growth
rates.

This project models that core as pure Dafny functions over immutable data and
proves what the code promises about it.

| module | file | models |
|---|---|---|
| `Wrappers` | `wrappers.dfy` | `Option` and `Result` |
| `Seqs` | `seqs.dfy` | `Array.prototype.filter`, `Set` de-duplication, keyed last-write-wins maps, sums and maxima |
| `Sorting` | `sorting.dfy` | the stable `Array.prototype.sort`: an insertion sort over a strict weak order |
| `Lexicographic` | `lexicographic.dfy` | the default string order of `sort()` with no comparator |
| `Observations` | `observations.dfy` | the `WaterConsumptionData` record |
| `DataLoader` | `data_loader.dfy` | `getCountryData`, `getAvailableCountries` |
| `Selection` | `selection.dfy` | `toggleCountry`, `removeCountry`, the initial selection, "Select Top 5", "Clear All" |
| `Dashboard` | `dashboard.dfy` | `filteredData`, `trendData`, `latestYearData`, `sectorData`, `radarData`, `summaryStats` |
| `Forecast` | `forecast.dfy` | `handlePredict` and the three growth rates |

Modelling choices:

- Numbers are `real`, apart from the year and country code, which are `int`.
- The scarcity level is the text the table holds. `"all"` is the filter value that lets every level pass.
- The prediction service is a parameter of type `(string, int) -> Option<Prediction>`; `None` stands for a request that throws.
- `Promise.all` becomes an all-or-nothing map over the requested years in request order.
- A JavaScript `Map` filled by `forEach` becomes a left fold in which a later row overwrites an earlier one. The trend keeps the map's insertion-ordered entries and then sorts them by year.
- `handlePredict` returns `Result<ForecastSeries, AssemblyError>`:
  - `NotReady` is the early return when no country is chosen or the dataset is empty;
  - `NoHistory` is the "no data" toast;
  - `AssemblyFailed` is the `catch` branch.

Behaviour the model keeps exactly as the code has it:

- `summaryStats` gives no result only when there are no filtered rows. Filtered rows with none in the upper year give totals of zero and a high-scarcity count of zero (`Dashboard.SummaryWithoutLatestRows`).
- The average per-capita figure divides by the number of selected countries, not by the number of rows in the upper year.
- A target year not after the baseline year requests nothing. Reading the last of zero predictions then throws, so the assembly ends in the error branch (`Forecast.TargetNotAfterBaselineFails`). A successful series therefore always has at least two forecast points, and exactly `targetYear - baselineYear + 1` of them.
- Duplicate (country, year) rows are kept by the filters. In the trend and the radar, the later row wins.

## Model

| member | source | states |
|---|---|---|
| DataLoader.GetCountryData | src/lib/dataLoader.ts:39-41 | the result holds exactly the rows of the country, each as often as in the dataset, with years in non-decreasing order |
| DataLoader.GetCountryDataStable | src/lib/dataLoader.ts:40 | rows of one year keep their dataset order: the slice restricted to a year equals the dataset restricted to that country and year |
| DataLoader.GetCountryDataIdempotent | src/lib/dataLoader.ts:39-41 | slicing a slice by the same country changes nothing |
| DataLoader.GetCountryDataLastIsLatest | src/lib/dataLoader.ts:39-41 | the last row of a non-empty slice has the latest year of any row of that country |
| DataLoader.GetAvailableCountries | src/lib/dataLoader.ts:43-46 | the result is strictly ascending in string order, has no duplicates, and holds a name exactly when some row has that country |
| Lexicographic.StrLtIsStrictWeakOrder | src/lib/dataLoader.ts:45 | the default string order is irreflexive, transitive and total on distinct strings, so the sort it drives is well defined |
| Sorting.SortStable | src/lib/dataLoader.ts:40 | the sort keeps the relative order of mutually tied elements |
| Sorting.SortSorted | src/lib/dataLoader.ts:40 | under a strict weak order the sort's output is ordered |
| Selection.InitialSelection | src/pages/Dashboard.tsx:35-38 | the first selection holds at most three available countries in strictly ascending order; each sorts before every country left out, and it leaves a country out only when it holds three |
| Selection.SelectTop5 | src/pages/Dashboard.tsx:256 | "Select Top 5" selects, in strictly ascending order, the alphabetically smallest available countries: at most five, and fewer only when no country is left out |
| Selection.ClearAll | src/pages/Dashboard.tsx:263 | "Clear All" leaves a valid selection holding no country |
| Selection.Toggle | src/pages/Dashboard.tsx:43-51 | toggling keeps a selection valid; afterwards the country is selected iff it was not and fewer than five were; no other country changes; a full selection is unchanged by a new country |
| Selection.ToggleCases | src/pages/Dashboard.tsx:43-51 | toggling a selected country removes exactly its position; toggling a new one into a non-full selection appends it |
| Selection.ToggleUndoesAdd | src/pages/Dashboard.tsx:43-51 | adding a country and toggling it again gives back the original selection |
| Selection.Remove | src/pages/Dashboard.tsx:53-55 | removing drops the country, keeps every other and duplicate-freedom, and is the identity for an unselected country; on a duplicate-free selection it cuts out exactly the country's position, leaving the rest in order |
| Dashboard.FilteredData | src/pages/Dashboard.tsx:57-64 | a row is kept iff its country is selected, its year lies in the range and its scarcity matches the filter or the filter is "all" |
| Dashboard.FilteredDataAppend | src/pages/Dashboard.tsx:57-64 | filtering distributes over concatenation of datasets |
| Dashboard.FilteredDataIdempotent | src/pages/Dashboard.tsx:57-64 | filtering filtered rows again changes nothing |
| Dashboard.TrendShape | src/pages/Dashboard.tsx:67-78 | the trend has strictly ascending years, exactly the years of its rows, and each point's values are the last-wins map of that year's rows |
| Dashboard.TrendDataYears | src/pages/Dashboard.tsx:67-78 | the trend has one point per distinct filtered year, strictly ascending and inside the year range |
| Dashboard.TrendDataKeys | src/pages/Dashboard.tsx:70-75 | a trend point has a key for a country iff a filtered row of that country has the point's year |
| Dashboard.TrendDataLastWins | src/pages/Dashboard.tsx:74 | the value under a country is the consumption of that country's last filtered row in that year |
| Seqs.LastWinsSpec | src/pages/Dashboard.tsx:70-75 | the keyed fold has exactly the rows' keys, and each key maps to the value of the last row with that key |
| Dashboard.LatestRowsDirect | src/pages/Dashboard.tsx:81-84 | the upper-year rows equal a single filter over the dataset, and are empty when the range is inverted |
| Dashboard.LatestYearData | src/pages/Dashboard.tsx:81-90 | one bar per upper-year row, in order, with its country, consumption and per-capita use |
| Dashboard.SectorData | src/pages/Dashboard.tsx:93-103 | one sector entry per upper-year row, in order, with its three sector shares |
| Dashboard.LatestYearCountries | src/pages/Dashboard.tsx:81-90 | a country has a bar iff some dataset row of that country passes the filter in the upper year |
| Dashboard.BarsAndSectorsAligned | src/pages/Dashboard.tsx:81-103 | bars and sector entries list the same countries in the same order |
| Dashboard.Radar | src/pages/Dashboard.tsx:106-127 | no upper-year rows give no radar; otherwise five entries named Population, Rainfall, GW Depletion, Dams, Industries in that order |
| Dashboard.RadarData | src/pages/Dashboard.tsx:106-127 | the radar is empty iff no filtered row has the upper year, and otherwise has the five metrics in order |
| Dashboard.Denominator | src/pages/Dashboard.tsx:113-117 | population, dams and industries are divided by their largest value among the upper-year rows: no row's value exceeds it, and some row attains it |
| Dashboard.RadarValues | src/pages/Dashboard.tsx:120-126 | a radar entry has a key per upper-year country, whose value is the metric of that country's last row over the metric's denominator, times 100 |
| Dashboard.RadarFixedScales | src/pages/Dashboard.tsx:114-115 | rainfall is scaled by 3000 and groundwater depletion by 100, whatever the rows hold |
| Dashboard.RadarMaxScaledBounded | src/pages/Dashboard.tsx:113-117 | for non-negative data, population, dams and industries scaled by their in-filter maximum lie between 0 and 100 |
| Dashboard.SummaryStats | src/pages/Dashboard.tsx:130-151 | there is no summary iff there are no filtered rows; a summary counts the selected countries, and its high-scarcity count is at most the number of upper-year rows |
| Dashboard.SummaryTotals | src/pages/Dashboard.tsx:133-139 | the total is the sum of upper-year consumption; the average times the number of selected countries is the sum of upper-year per-capita use |
| Dashboard.SummaryHighScarcity | src/pages/Dashboard.tsx:141-143 | the high-scarcity figure is the number of dataset rows that pass the filter in the upper year with level "High" |
| Dashboard.SelectionNonEmpty | src/pages/Dashboard.tsx:137-139 | whenever there is a summary the selection is non-empty, so the average never divides by zero |
| Dashboard.HighScarcityBound | src/pages/Dashboard.tsx:141-143 | the high-scarcity rows are among the upper-year rows |
| Dashboard.HighScarcityDirect | src/pages/Dashboard.tsx:141-143 | the upper-year "High" rows of the filtered data are exactly the dataset rows that pass the filter in the upper year with level "High", in dataset order |
| Dashboard.SummaryHighScarcityUnderOtherLevel | src/pages/Dashboard.tsx:141-143 | with the filter on a level other than "all" or "High", the high-scarcity count is zero |
| Dashboard.SummaryWithoutLatestRows | src/pages/Dashboard.tsx:130-151 | filtered rows with none in the upper year give total 0, average 0, high-scarcity 0 and the selected-country count |
| Forecast.RequestedYears | src/pages/Predict.tsx:70-75 | the requested years are baseline+1 … target, in order, and none when the target is not after the baseline |
| Forecast.PredictAll | src/pages/Predict.tsx:74-86 | all requests succeed iff every year is predicted; the results are in request order, each the service's answer for its year |
| Forecast.BuildSeries | src/pages/Predict.tsx:88-125 | one historical point per row, the baseline point first in the forecast, then one point per prediction; baseline year, current value and target prediction come from the last row and the last prediction |
| Forecast.HandlePredict | src/pages/Predict.tsx:38-125 | not ready iff no country or no data; no history iff no row has the country; on success the forecast has target−baseline+1 ≥ 2 points and the stored prediction is the service's answer for the target year |
| Forecast.NoRowsMeansNoHistory | src/pages/Predict.tsx:44-54 | the slice is empty iff no row has the country |
| Forecast.HandlePredictHistory | src/pages/Predict.tsx:58-113 | on success the history is the slice's rows with consumption and null models; the baseline is the last row, whose year is the country's latest |
| Forecast.HandlePredictFuture | src/pages/Predict.tsx:88-102 | on success the forecast starts at the baseline with all three models at the current value; point i has year baseline+i and a null consumption; every later point carries the service's three values for its year |
| Forecast.HandlePredictSucceeds | src/pages/Predict.tsx:70-125 | for a country with rows, assembly succeeds iff the target is after the baseline and every year up to it is predicted |
| Forecast.FailedRequestAborts | src/pages/Predict.tsx:86 | one failed request for a year in range fails the whole assembly |
| Forecast.TargetNotAfterBaselineFails | src/pages/Predict.tsx:104-121 | a target not after the baseline ends in the error branch |
| Forecast.GrowthRate | src/pages/Predict.tsx:311 | applying the rate to the baseline gives the prediction back; for a positive baseline the rate is positive iff the prediction exceeds it; it is zero iff they are equal |
| Forecast.GrowthRates | src/pages/Predict.tsx:311-323 | each of the LASSO, KNN and Ridge rates, applied to the baseline, gives that model's prediction |
| Forecast.TestlandForecast | src/pages/Predict.tsx:38-125 | rows 2020→100 and 2021→110 with a service answering (120, 118, 121) give two history points, baseline 2021 at 110, forecast points 2021, 2022, 2023, prediction (120, 118, 121) and LASSO growth 1000/110 |

## Left out

- `loadDataset` (CSV download and parsing with dynamic typing) is not modelled: it is I/O. The model starts from the parsed rows.
- `predictWaterConsumption` is not modelled: the HTTP call becomes the predictor parameter. The backend service `backend/app.py` is not part of this model.
- The Compare, History, Index and Country Analysis pages are not part of this model.
- React state, effects, memo caching, toasts, the loading flag and chart rendering are left out.
- `toFixed` rounding of the displayed figures is left out; the model keeps exact values.
- Floating-point arithmetic is modelled as exact `real` arithmetic: no rounding, NaN or Infinity.
- `|| 0` in the radar (src/pages/Dashboard.tsx:123) turns a missing metric cell (`null` or `undefined` from the dynamically typed CSV parse) into 0; every row in the model has every field, so missing cells, and what `Math.max` makes of them, are not modelled.
- `sort()` compares UTF-16 code units; the model compares the characters of Dafny strings, which agree on text without surrogate pairs.
- `Promise.all` runs the requests concurrently; the model calls the predictor in order, which gives the same all-or-nothing result.
- Forecast.HandlePredict: the target year is an integer. The early return on an empty year string and the `parseInt` of the selected year are left out.
- Dashboard.Radar: requires the in-filter maxima of population, dams and industries to be non-zero; the code would divide by zero and produce NaN or Infinity.
- Dashboard.RadarData: carries the same non-zero-maximum precondition as `Dashboard.Radar`.
- Dashboard.TrendData / Dashboard.Radar: the code writes the year (the metric name) and the country values into one object, so a country named `year` or `metric` would overwrite that field and one named `__proto__` would get no key; the model keeps the year and metric apart from the country keys, so these three country names are not modelled.
- Forecast.GrowthRate: requires a non-zero baseline; the code would show Infinity or NaN.
- Forecast.GrowthRates: carries the same non-zero-baseline precondition as `Forecast.GrowthRate`.

=== FILE: dashboard.dfy ===
/** The dashboard's projection engine: one filter over the dataset and the
    chart-ready shapes computed from the filtered rows. */
module Dashboard {
  import opened Wrappers
  import opened Seqs
  import opened Sorting
  import opened Observations

  /** The dashboard's filter state: the selected countries, the year slider
      `[yearFrom, yearTo]` and the scarcity drop-down (`"all"` or a level). */
  datatype Criteria = Criteria(selected: seq<string>, yearFrom: int, yearTo: int, scarcity: string)

  const AllLevels: string := "all"
  const HighLevel: string := "High"

  predicate Passes(crit: Criteria, row: Observation) {
    && row.country in crit.selected
    && crit.yearFrom <= row.year
    && row.year <= crit.yearTo
    && (crit.scarcity == AllLevels || row.scarcityLevel == crit.scarcity)
  }

  function Matches(crit: Criteria): Observation -> bool {
    row => Passes(crit, row)
  }

  /** `filteredData`. */
  function FilteredData(data: seq<Observation>, crit: Criteria): (r: seq<Observation>)
    ensures |r| <= |data|
    ensures forall row :: row in r <==> row in data && Passes(crit, row)
  {
    Filter(data, Matches(crit))
  }

  /** Filtering keeps the dataset's order: it commutes with concatenation. */
  lemma FilteredDataAppend(a: seq<Observation>, b: seq<Observation>, crit: Criteria)
    ensures FilteredData(a + b, crit) == FilteredData(a, crit) + FilteredData(b, crit)
  {
    FilterConcat(a, b, Matches(crit));
  }

  /** Re-filtering filtered data changes nothing. */
  lemma FilteredDataIdempotent(data: seq<Observation>, crit: Criteria)
    ensures FilteredData(FilteredData(data, crit), crit) == FilteredData(data, crit)
  {
    FilterAll(FilteredData(data, crit), Matches(crit));
  }

  // ---------------------------------------------------------------------------
  // Trend: one point per year, country -> total consumption

  /** A chart point. The code keeps the year and the country values in one
      object; here they are separate fields, so a country key never shadows it. */
  datatype TrendPoint = TrendPoint(year: int, values: map<string, real>)

  predicate PointYearLt(a: TrendPoint, b: TrendPoint) {
    a.year < b.year
  }

  /** `yearMap.has(year)` as a position in the insertion-ordered entries, or -1. */
  function FindYear(g: seq<TrendPoint>, y: int): (k: int)
    ensures -1 <= k < |g|
    ensures k >= 0 ==> g[k].year == y
    ensures k < 0 ==> forall i :: 0 <= i < |g| ==> g[i].year != y
  {
    if |g| == 0 then -1
    else if g[|g| - 1].year == y then |g| - 1
    else FindYear(g[..|g| - 1], y)
  }

  /** One step of the `forEach`: create the year's entry if missing, then set
      the row's country to its consumption, overwriting an earlier value. */
  function AddRow(g: seq<TrendPoint>, row: Observation): seq<TrendPoint> {
    var k := FindYear(g, row.year);
    if k < 0 then g + [TrendPoint(row.year, map[row.country := row.totalConsumption])]
    else g[k := g[k].(values := g[k].values[row.country := row.totalConsumption])]
  }

  /** The `yearMap` after visiting `rows` in order, as its insertion-ordered entries. */
  function Group(rows: seq<Observation>): seq<TrendPoint> {
    if |rows| == 0 then []
    else AddRow(Group(rows[..|rows| - 1]), rows[|rows| - 1])
  }

  /** The years of the trend points. */
  function PointYears(g: seq<TrendPoint>): set<int> {
    set i | 0 <= i < |g| :: g[i].year
  }

  /** The years of the rows. */
  function RowYears(rows: seq<Observation>): set<int> {
    set i | 0 <= i < |rows| :: rows[i].year
  }

  ghost predicate DistinctYears(g: seq<TrendPoint>) {
    forall i, j :: 0 <= i < j < |g| ==> g[i].year != g[j].year
  }

  /** The grouping holds one entry per distinct year of `rows`. */
  lemma {:induction false} GroupYears(rows: seq<Observation>)
    ensures DistinctYears(Group(rows))
    ensures PointYears(Group(rows)) == RowYears(rows)
  {
    if |rows| != 0 {
      var n := |rows| - 1;
      var prefix := rows[..n];
      var row := rows[n];
      GroupYears(prefix);
      RowYearsSnoc(rows);
      AddRowYears(Group(prefix), row);
    }
  }

  /** The years of a sequence of rows grow by the year of an appended row. */
  lemma RowYearsSnoc(rows: seq<Observation>)
    requires |rows| > 0
    ensures RowYears(rows) == RowYears(rows[..|rows| - 1]) + {rows[|rows| - 1].year}
  {
    var n := |rows| - 1;
    var prefix := rows[..n];
    forall y | y in RowYears(rows)
      ensures y in RowYears(prefix) + {rows[n].year}
    {
      var j :| 0 <= j < |rows| && rows[j].year == y;
      if j < n {
        assert prefix[j].year == y;
      }
    }
    forall y | y in RowYears(prefix)
      ensures y in RowYears(rows)
    {
      var j :| 0 <= j < |prefix| && prefix[j].year == y;
      assert rows[j].year == y;
    }
    assert rows[n].year in RowYears(rows);
  }

  /** One step of the grouping keeps the years distinct and adds the row's year. */
  lemma AddRowYears(g0: seq<TrendPoint>, row: Observation)
    requires DistinctYears(g0)
    ensures DistinctYears(AddRow(g0, row))
    ensures PointYears(AddRow(g0, row)) == PointYears(g0) + {row.year}
  {
    var g := AddRow(g0, row);
    var k := FindYear(g0, row.year);
    if k < 0 {
      assert g == g0 + [TrendPoint(row.year, map[row.country := row.totalConsumption])];
      forall y | y in PointYears(g)
        ensures y in PointYears(g0) + {row.year}
      {
        var i :| 0 <= i < |g| && g[i].year == y;
        if i < |g0| {
          assert g0[i].year == y;
        }
      }
      forall y | y in PointYears(g0)
        ensures y in PointYears(g)
      {
        var i :| 0 <= i < |g0| && g0[i].year == y;
        assert g[i].year == y;
      }
      assert g[|g0|].year == row.year;
    } else {
      assert |g| == |g0|;
      assert forall i :: 0 <= i < |g| ==> g[i].year == g0[i].year;
      assert g0[k].year == row.year;
      assert PointYears(g) == PointYears(g0);
    }
  }

  /** `rows` filtered to the year `y`, with one more row appended. */
  lemma FilterYearSnoc(prefix: seq<Observation>, row: Observation, y: int)
    ensures Filter(prefix + [row], YearIs(y)) == Filter(prefix, YearIs(y)) + (if row.year == y then [row] else [])
  {
    FilterConcat(prefix, [row], YearIs(y));
    FilterCons(row, [], YearIs(y));
  }

  /** The value invariant of the grouping, for every entry. */
  ghost predicate ValuesFold(g: seq<TrendPoint>, rows: seq<Observation>) {
    forall i :: 0 <= i < |g| ==> g[i].values == LastWins(Filter(rows, YearIs(g[i].year)), Country, Consumption)
  }

  /** Each entry's values are the keyed fold of that year's rows. */
  lemma {:induction false} GroupValues(rows: seq<Observation>)
    ensures ValuesFold(Group(rows), rows)
  {
    if |rows| != 0 {
      var n := |rows| - 1;
      var prefix := rows[..n];
      assert rows == prefix + [rows[n]];
      GroupValues(prefix);
      GroupYears(prefix);
      AddRowValues(Group(prefix), prefix, rows[n]);
    }
  }

  /** One `forEach` step keeps the value invariant. */
  lemma AddRowValues(g0: seq<TrendPoint>, prefix: seq<Observation>, row: Observation)
    requires ValuesFold(g0, prefix)
    requires PointYears(g0) == RowYears(prefix)
    requires DistinctYears(g0)
    ensures ValuesFold(AddRow(g0, row), prefix + [row])
  {
    var g := AddRow(g0, row);
    var rows := prefix + [row];
    var k := FindYear(g0, row.year);
    forall i | 0 <= i < |g|
      ensures g[i].values == LastWins(Filter(rows, YearIs(g[i].year)), Country, Consumption)
    {
      FilterYearSnoc(prefix, row, g[i].year);
      if k < 0 && i == |g0| {
        assert row.year !in PointYears(g0);
        NewYearFold(prefix, row);
      } else if k == i {
        LastWinsSnoc(Filter(prefix, YearIs(row.year)), row, Country, Consumption);
      } else {
        assert g[i] == g0[i];
        assert g[i].year != row.year;
        assert Filter(rows, YearIs(g[i].year)) == Filter(prefix, YearIs(g[i].year));
      }
    }
  }

  /** A row whose year no earlier row has starts a fresh one-key map. */
  lemma NewYearFold(prefix: seq<Observation>, row: Observation)
    requires row.year !in RowYears(prefix)
    ensures LastWins(Filter(prefix + [row], YearIs(row.year)), Country, Consumption)
         == map[row.country := row.totalConsumption]
  {
    forall j | 0 <= j < |prefix|
      ensures !YearIs(row.year)(prefix[j])
    {
      assert prefix[j].year in RowYears(prefix);
    }
    FilterNone(prefix, YearIs(row.year));
    FilterYearSnoc(prefix, row, row.year);
    LastWinsSnoc([], row, Country, Consumption);
  }

  /** Array.from(yearMap.values()).sort((a, b) => a.year - b.year). */
  function Trend(rows: seq<Observation>): seq<TrendPoint> {
    Sort(Group(rows), PointYearLt)
  }

  /** `trendData`. */
  function TrendData(data: seq<Observation>, crit: Criteria): seq<TrendPoint> {
    Trend(FilteredData(data, crit))
  }

  /** The trend is strictly ascending by year with exactly the rows' years,
      and each point's values are the keyed fold of that year's rows. */
  lemma TrendShape(rows: seq<Observation>)
    ensures forall i, j :: 0 <= i < j < |Trend(rows)| ==> Trend(rows)[i].year < Trend(rows)[j].year
    ensures PointYears(Trend(rows)) == RowYears(rows)
    ensures ValuesFold(Trend(rows), rows)
  {
    var g := Group(rows);
    GroupYears(rows);
    GroupValues(rows);
    TrendStrict(g);
    SortKeepsYears(g);
    SortKeepsValues(g, rows);
  }

  lemma SortKeepsYears(g: seq<TrendPoint>)
    ensures PointYears(Sort(g, PointYearLt)) == PointYears(g)
  {
    var t := Sort(g, PointYearLt);
    TrendMembers(g);
    forall y | y in PointYears(t)
      ensures y in PointYears(g)
    {
      var i :| 0 <= i < |t| && t[i].year == y;
      assert t[i] in t;
      var a :| 0 <= a < |g| && g[a] == t[i];
    }
    forall y | y in PointYears(g)
      ensures y in PointYears(t)
    {
      var a :| 0 <= a < |g| && g[a].year == y;
      assert g[a] in g;
      var i :| 0 <= i < |t| && t[i] == g[a];
    }
  }

  lemma SortKeepsValues(g: seq<TrendPoint>, rows: seq<Observation>)
    requires ValuesFold(g, rows)
    ensures ValuesFold(Sort(g, PointYearLt), rows)
  {
    var t := Sort(g, PointYearLt);
    TrendMembers(g);
    forall i | 0 <= i < |t|
      ensures t[i].values == LastWins(Filter(rows, YearIs(t[i].year)), Country, Consumption)
    {
      assert t[i] in t;
      var a :| 0 <= a < |g| && g[a] == t[i];
    }
  }

  /** Sorting the entries neither adds nor drops one. */
  lemma TrendMembers(g: seq<TrendPoint>)
    ensures forall p :: p in Sort(g, PointYearLt) <==> p in g
  {
    var t := Sort(g, PointYearLt);
    assert forall p :: p in t <==> p in multiset(t);
    assert forall p :: p in g <==> p in multiset(g);
  }

  /** Entries with distinct years come out of the sort strictly ascending. */
  lemma TrendStrict(g: seq<TrendPoint>)
    requires DistinctYears(g)
    ensures forall i, j :: 0 <= i < j < |Sort(g, PointYearLt)| ==> Sort(g, PointYearLt)[i].year < Sort(g, PointYearLt)[j].year
  {
    var t := Sort(g, PointYearLt);
    TrendSorted(g);
    assert NoDuplicates(g);
    SortNoDuplicates(g, PointYearLt);
    TrendMembers(g);
    forall i, j | 0 <= i < j < |t|
      ensures t[i].year < t[j].year
    {
      assert t[i] != t[j];
      assert t[i] in t && t[j] in t;
      assert t[i] in g && t[j] in g;
      var a :| 0 <= a < |g| && g[a] == t[i];
      var b :| 0 <= b < |g| && g[b] == t[j];
      assert a != b;
    }
  }

  /** Sorting points by year yields non-decreasing years. */
  lemma TrendSorted(g: seq<TrendPoint>)
    ensures forall i, j :: 0 <= i < j < |Sort(g, PointYearLt)| ==> Sort(g, PointYearLt)[i].year <= Sort(g, PointYearLt)[j].year
  {
    assert StrictWeakOrder(PointYearLt);
    SortSorted(g, PointYearLt);
  }

  /** `trendData` is strictly ascending by year, has a point exactly for the
      years of the filtered rows, and every such year lies in the slider range. */
  lemma TrendDataYears(data: seq<Observation>, crit: Criteria)
    ensures var t := TrendData(data, crit);
            forall i, j :: 0 <= i < j < |t| ==> t[i].year < t[j].year
    ensures PointYears(TrendData(data, crit)) == RowYears(FilteredData(data, crit))
    ensures var t := TrendData(data, crit);
            forall i :: 0 <= i < |t| ==> crit.yearFrom <= t[i].year <= crit.yearTo
  {
    var f := FilteredData(data, crit);
    var t := TrendData(data, crit);
    TrendShape(f);
    forall i | 0 <= i < |t|
      ensures crit.yearFrom <= t[i].year <= crit.yearTo
    {
      assert t[i].year in PointYears(t);
      var k :| 0 <= k < |f| && f[k].year == t[i].year;
      assert f[k] in f;
    }
  }

  /** A point of `trendData` has a key for country `c` exactly when some
      filtered row is for `c` in that point's year. */
  lemma TrendDataKeys(data: seq<Observation>, crit: Criteria, i: nat, c: string)
    requires i < |TrendData(data, crit)|
    ensures var t := TrendData(data, crit); var f := FilteredData(data, crit);
            c in t[i].values <==> exists k :: 0 <= k < |f| && f[k].country == c && f[k].year == t[i].year
  {
    var f := FilteredData(data, crit);
    var t := TrendData(data, crit);
    TrendShape(f);
    assert t[i].values == LastWins(Filter(f, YearIs(t[i].year)), Country, Consumption);
    LastWinsOfFilterKeys(f, YearIs(t[i].year), Country, Consumption, c);
  }

  /** The value under a country key is the consumption of the LAST filtered
      row for that country and year: a later duplicate overwrites. */
  lemma TrendDataLastWins(data: seq<Observation>, crit: Criteria, i: nat, k: nat)
    requires i < |TrendData(data, crit)|
    requires k < |FilteredData(data, crit)|
    requires FilteredData(data, crit)[k].year == TrendData(data, crit)[i].year
    requires forall j :: k < j < |FilteredData(data, crit)| && FilteredData(data, crit)[j].year == FilteredData(data, crit)[k].year
               ==> FilteredData(data, crit)[j].country != FilteredData(data, crit)[k].country
    ensures var t := TrendData(data, crit); var f := FilteredData(data, crit);
            f[k].country in t[i].values && t[i].values[f[k].country] == f[k].totalConsumption
  {
    var f := FilteredData(data, crit);
    var t := TrendData(data, crit);
    TrendShape(f);
    assert t[i].values == LastWins(Filter(f, YearIs(t[i].year)), Country, Consumption);
    LastWinsOfFilter(f, YearIs(t[i].year), Country, Consumption, k);
  }

  // ---------------------------------------------------------------------------
  // Latest-year bar and sector rows

  /** The filtered rows of the slider's upper year, in filter order. */
  function LatestRows(data: seq<Observation>, crit: Criteria): seq<Observation> {
    Filter(FilteredData(data, crit), YearIs(crit.yearTo))
  }

  /** A row reaches the latest-year charts when its country is selected, its
      year is the slider's upper year, the range is not inverted and its
      scarcity passes. */
  function AtLatestYear(crit: Criteria): Observation -> bool {
    (row: Observation) => row.country in crit.selected && crit.yearFrom <= crit.yearTo && row.year == crit.yearTo
           && (crit.scarcity == AllLevels || row.scarcityLevel == crit.scarcity)
  }

  /** The two filters in a row are one filter straight over the dataset. */
  lemma LatestRowsDirect(data: seq<Observation>, crit: Criteria)
    ensures LatestRows(data, crit) == Filter(data, AtLatestYear(crit))
    ensures crit.yearFrom > crit.yearTo ==> LatestRows(data, crit) == []
  {
    FilterFilter(data, Matches(crit), YearIs(crit.yearTo), AtLatestYear(crit));
    if crit.yearFrom > crit.yearTo {
      FilterNone(data, AtLatestYear(crit));
    }
  }

  datatype BarRow = BarRow(country: string, consumption: real, perCapita: real)

  datatype SectorRow = SectorRow(country: string, agricultural: real, industrial: real, household: real)

  /** `latestYearData`: one bar per latest-year row, duplicates kept. */
  function LatestYearData(data: seq<Observation>, crit: Criteria): (r: seq<BarRow>)
    ensures |r| == |LatestRows(data, crit)|
    ensures forall i :: 0 <= i < |r| ==>
              && r[i].country == LatestRows(data, crit)[i].country
              && r[i].consumption == LatestRows(data, crit)[i].totalConsumption
              && r[i].perCapita == LatestRows(data, crit)[i].perCapitaUse
  {
    var latest := LatestRows(data, crit);
    seq(|latest|, i requires 0 <= i < |latest| =>
      BarRow(latest[i].country, latest[i].totalConsumption, latest[i].perCapitaUse))
  }

  /** `sectorData`: the three percentages copied, never renormalised. */
  function SectorData(data: seq<Observation>, crit: Criteria): (r: seq<SectorRow>)
    ensures |r| == |LatestRows(data, crit)|
    ensures forall i :: 0 <= i < |r| ==>
              && r[i].country == LatestRows(data, crit)[i].country
              && r[i].agricultural == LatestRows(data, crit)[i].agriculturalPct
              && r[i].industrial == LatestRows(data, crit)[i].industrialPct
              && r[i].household == LatestRows(data, crit)[i].householdPct
  {
    var latest := LatestRows(data, crit);
    seq(|latest|, i requires 0 <= i < |latest| =>
      SectorRow(latest[i].country, latest[i].agriculturalPct, latest[i].industrialPct, latest[i].householdPct))
  }

  /** A country has a bar exactly when the dataset has a row that passes the
      filter in the slider's upper year; no value is interpolated. */
  lemma LatestYearCountries(data: seq<Observation>, crit: Criteria, c: string)
    ensures (exists i :: 0 <= i < |LatestYearData(data, crit)| && LatestYearData(data, crit)[i].country == c)
        <==> (exists row :: row in data && Passes(crit, row) && row.year == crit.yearTo && row.country == c)
  {
    var latest := LatestRows(data, crit);
    var bars := LatestYearData(data, crit);
    if exists i :: 0 <= i < |bars| && bars[i].country == c {
      var i :| 0 <= i < |bars| && bars[i].country == c;
      InLatestRows(data, crit, latest[i]);
    }
    if exists row :: row in data && Passes(crit, row) && row.year == crit.yearTo && row.country == c {
      var row :| row in data && Passes(crit, row) && row.year == crit.yearTo && row.country == c;
      InLatestRows(data, crit, row);
      var i :| 0 <= i < |latest| && latest[i] == row;
      assert bars[i].country == c;
    }
  }

  lemma InLatestRows(data: seq<Observation>, crit: Criteria, row: Observation)
    ensures row in LatestRows(data, crit) <==> row in data && Passes(crit, row) && row.year == crit.yearTo
  {
    assert row in FilteredData(data, crit) <==> row in data && Passes(crit, row);
    assert YearIs(crit.yearTo)(row) <==> row.year == crit.yearTo;
  }

  /** The bar chart and the sector chart list the same countries in the same order. */
  lemma BarsAndSectorsAligned(data: seq<Observation>, crit: Criteria)
    ensures |LatestYearData(data, crit)| == |SectorData(data, crit)|
    ensures forall i :: 0 <= i < |LatestYearData(data, crit)| ==>
              LatestYearData(data, crit)[i].country == SectorData(data, crit)[i].country
  {
  }

  // ---------------------------------------------------------------------------
  // Radar: five metrics, each country's value scaled to a percentage

  datatype Metric = Population | Rainfall | GwDepletion | Dams | Industries

  const RadarMetrics: seq<Metric> := [Population, Rainfall, GwDepletion, Dams, Industries]

  const RainfallScale: real := 3000.0
  const DepletionScale: real := 100.0

  function MetricName(m: Metric): string {
    match m
    case Population => "Population"
    case Rainfall => "Rainfall"
    case GwDepletion => "GW Depletion"
    case Dams => "Dams"
    case Industries => "Industries"
  }

  function MetricValue(m: Metric, row: Observation): real {
    match m
    case Population => row.population
    case Rainfall => row.precipitationMm
    case GwDepletion => row.groundwaterDepletionPct
    case Dams => row.dams
    case Industries => row.industries
  }

  function MetricColumn(m: Metric, rows: seq<Observation>): (col: seq<real>)
    ensures |col| == |rows|
    ensures forall i :: 0 <= i < |rows| ==> col[i] == MetricValue(m, rows[i])
  {
    seq(|rows|, i requires 0 <= i < |rows| => MetricValue(m, rows[i]))
  }

  /** The divisor of a metric: fixed for rainfall and depletion, otherwise the
      largest value among the latest-year rows. */
  function Denominator(m: Metric, latest: seq<Observation>): (d: real)
    requires |latest| > 0
    ensures m != Rainfall && m != GwDepletion ==>
      && (forall j :: 0 <= j < |latest| ==> MetricValue(m, latest[j]) <= d)
      && (exists j :: 0 <= j < |latest| && MetricValue(m, latest[j]) == d)
  {
    match m
    case Rainfall => RainfallScale
    case GwDepletion => DepletionScale
    case _ => MaxOf(MetricColumn(m, latest))
  }

  /** The radar divides by each metric's in-filter maximum, so the model asks
      for those maxima to be non-zero. */
  predicate RadarDefined(latest: seq<Observation>) {
    |latest| == 0 ||
    (Denominator(Population, latest) != 0.0 && Denominator(Dams, latest) != 0.0 && Denominator(Industries, latest) != 0.0)
  }

  lemma DenominatorNonZero(m: Metric, latest: seq<Observation>)
    requires RadarDefined(latest) && |latest| > 0
    ensures Denominator(m, latest) != 0.0
  {
  }

  function Scaled(m: Metric, d: real): Observation -> real
    requires d != 0.0
  {
    row => MetricValue(m, row) / d * 100.0
  }

  /** A radar entry, with the metric name apart from the country keys as in `TrendPoint`. */
  datatype RadarPoint = RadarPoint(metric: string, values: map<string, real>)

  /** One radar entry: every latest-year row writes its scaled value under its
      country, a later row for the same country overwriting an earlier one. */
  function RadarPointFor(m: Metric, latest: seq<Observation>): RadarPoint
    requires |latest| > 0 && Denominator(m, latest) != 0.0
  {
    RadarPoint(MetricName(m), LastWins(latest, Country, Scaled(m, Denominator(m, latest))))
  }

  /** The radar of a set of latest-year rows: nothing when there are none,
      otherwise one entry per metric in the fixed order. */
  function Radar(latest: seq<Observation>): (r: seq<RadarPoint>)
    requires RadarDefined(latest)
    ensures |r| == 0 <==> |latest| == 0
    ensures |r| != 0 ==> |r| == |RadarMetrics|
    ensures forall i :: 0 <= i < |r| ==> r[i].metric == MetricName(RadarMetrics[i])
  {
    if |latest| == 0 then []
    else seq(|RadarMetrics|, i requires 0 <= i < |RadarMetrics| => RadarPointFor(RadarMetrics[i], latest))
  }

  /** `radarData`. */
  function RadarData(data: seq<Observation>, crit: Criteria): (r: seq<RadarPoint>)
    requires RadarDefined(LatestRows(data, crit))
    ensures |r| == 0 <==> (forall row :: row in FilteredData(data, crit) ==> row.year != crit.yearTo)
    ensures |r| != 0 ==> |r| == |RadarMetrics|
    ensures forall i :: 0 <= i < |r| ==> r[i].metric == MetricName(RadarMetrics[i])
  {
    var latest := LatestRows(data, crit);
    assert |latest| == 0 <==> (forall row :: row in FilteredData(data, crit) ==> row.year != crit.yearTo) by {
      if |latest| != 0 {
        assert latest[0] in latest;
      }
    }
    Radar(latest)
  }

  /** Every radar entry has a key for exactly the countries of the latest-year
      rows; the value under a country is its last row's metric divided by the
      metric's denominator, times 100. */
  lemma RadarValues(latest: seq<Observation>, i: nat, k: nat)
    requires RadarDefined(latest)
    requires i < |Radar(latest)|
    requires k < |latest|
    requires forall j :: k < j < |latest| ==> latest[j].country != latest[k].country
    ensures i < |RadarMetrics| && Denominator(RadarMetrics[i], latest) != 0.0
    ensures forall c :: c in Radar(latest)[i].values <==> exists j :: 0 <= j < |latest| && latest[j].country == c
    ensures latest[k].country in Radar(latest)[i].values
    ensures Radar(latest)[i].values[latest[k].country]
         == MetricValue(RadarMetrics[i], latest[k]) / Denominator(RadarMetrics[i], latest) * 100.0
  {
    DenominatorNonZero(RadarMetrics[i], latest);
    assert Radar(latest)[i] == RadarPointFor(RadarMetrics[i], latest);
    RadarPointValues(RadarMetrics[i], latest, k);
  }

  lemma RadarPointValues(m: Metric, latest: seq<Observation>, k: nat)
    requires k < |latest| && Denominator(m, latest) != 0.0
    requires forall j :: k < j < |latest| ==> latest[j].country != latest[k].country
    ensures forall c :: c in RadarPointFor(m, latest).values <==> exists j :: 0 <= j < |latest| && latest[j].country == c
    ensures latest[k].country in RadarPointFor(m, latest).values
    ensures RadarPointFor(m, latest).values[latest[k].country] == MetricValue(m, latest[k]) / Denominator(m, latest) * 100.0
  {
    var d := Denominator(m, latest);
    LastWinsSpec(latest, Country, Scaled(m, d));
    assert Scaled(m, d)(latest[k]) == MetricValue(m, latest[k]) / d * 100.0;
  }

  /** Rainfall is scaled by 3000 mm and groundwater depletion by 100 %,
      whatever the rows hold. */
  lemma RadarFixedScales(latest: seq<Observation>, k: nat)
    requires RadarDefined(latest)
    requires k < |latest|
    requires forall j :: k < j < |latest| ==> latest[j].country != latest[k].country
    ensures latest[k].country in Radar(latest)[1].values && latest[k].country in Radar(latest)[2].values
    ensures Radar(latest)[1].values[latest[k].country] == latest[k].precipitationMm / 3000.0 * 100.0
    ensures Radar(latest)[2].values[latest[k].country] == latest[k].groundwaterDepletionPct / 100.0 * 100.0
  {
    assert RadarMetrics[1] == Rainfall && RadarMetrics[2] == GwDepletion;
    assert Denominator(Rainfall, latest) == 3000.0;
    assert Denominator(GwDepletion, latest) == 100.0;
    RadarValues(latest, 1, k);
    RadarValues(latest, 2, k);
  }

  /** `v / d * 100` lies in [0, 100] when `0 <= v <= d`. */
  lemma PercentOfMax(v: real, d: real)
    requires 0.0 <= v <= d && d != 0.0
    ensures 0.0 <= v / d * 100.0 <= 100.0
  {
    assert v / d <= 1.0 by {
      assert v / d * d == v;
    }
  }

  /** With non-negative population, dam and industry counts, the three
      max-scaled radar entries stay within [0, 100]. */
  lemma RadarMaxScaledBounded(latest: seq<Observation>, i: nat, c: string)
    requires RadarDefined(latest)
    requires forall j :: 0 <= j < |latest| ==> latest[j].population >= 0.0 && latest[j].dams >= 0.0 && latest[j].industries >= 0.0
    requires i < |Radar(latest)| && (i == 0 || i == 3 || i == 4)
    requires c in Radar(latest)[i].values
    ensures 0.0 <= Radar(latest)[i].values[c] <= 100.0
  {
    var m := RadarMetrics[i];
    var d := Denominator(m, latest);
    assert Radar(latest)[i] == RadarPointFor(m, latest);
    LastWinsSpec(latest, Country, Scaled(m, d));
    var j :| 0 <= j < |latest| && latest[j].country == c
             && Radar(latest)[i].values[c] == Scaled(m, d)(latest[j]);
    var col := MetricColumn(m, latest);
    assert col[j] == MetricValue(m, latest[j]) <= d;
    PercentOfMax(MetricValue(m, latest[j]), d);
  }

  // ---------------------------------------------------------------------------
  // Summary statistics

  datatype Stats = Stats(totalConsumption: real, avgPerCapita: real, highScarcity: nat, countriesCount: nat)

  function HighAt(y: int): Observation -> bool {
    (row: Observation) => row.year == y && row.scarcityLevel == HighLevel
  }

  /** A non-empty filter result means at least one country is selected. */
  lemma SelectionNonEmpty(data: seq<Observation>, crit: Criteria)
    requires |FilteredData(data, crit)| > 0
    ensures |crit.selected| >= 1
  {
    var filtered := FilteredData(data, crit);
    assert filtered[0] in filtered;
    assert filtered[0].country in crit.selected;
  }

  /** The high-scarcity rows of the upper year are among its latest-year rows. */
  lemma HighScarcityBound(data: seq<Observation>, crit: Criteria)
    ensures |Filter(FilteredData(data, crit), HighAt(crit.yearTo))| <= |LatestRows(data, crit)|
  {
    FilterMonotone(FilteredData(data, crit), HighAt(crit.yearTo), YearIs(crit.yearTo));
  }

  /** `total / n` for a positive count, characterised by multiplying back. */
  function Average(total: real, n: nat): (a: real)
    requires n >= 1
    ensures a * (n as real) == total
  {
    total / (n as real)
  }

  /** `summaryStats`: absent only when nothing passes the filter. */
  function SummaryStats(data: seq<Observation>, crit: Criteria): (r: Option<Stats>)
    ensures r.None? <==> |FilteredData(data, crit)| == 0
    ensures r.Some? ==> |crit.selected| >= 1 && r.value.countriesCount == |crit.selected|
    ensures r.Some? ==> r.value.highScarcity <= |LatestRows(data, crit)|
  {
    var filtered := FilteredData(data, crit);
    if |filtered| == 0 then None
    else
      SelectionNonEmpty(data, crit);
      HighScarcityBound(data, crit);
      var latest := LatestRows(data, crit);
      Some(Stats(
        Sum(latest, Consumption),
        Average(Sum(latest, PerCapita), |crit.selected|),
        |Filter(filtered, HighAt(crit.yearTo))|,
        |crit.selected|))
  }

  /** A dataset row that passes the filter, lies in the slider's upper year and
      has the "High" scarcity level. */
  function HighInUpperYear(crit: Criteria): Observation -> bool {
    (row: Observation) => Passes(crit, row) && row.year == crit.yearTo && row.scarcityLevel == HighLevel
  }

  /** The total adds up the latest-year rows' consumption; the average, times
      the number of SELECTED countries (not of rows), gives back their per-capita
      sum. */
  lemma SummaryTotals(data: seq<Observation>, crit: Criteria)
    requires |FilteredData(data, crit)| > 0
    ensures SummaryStats(data, crit).value.totalConsumption == Sum(LatestRows(data, crit), Consumption)
    ensures SummaryStats(data, crit).value.avgPerCapita * (|crit.selected| as real) == Sum(LatestRows(data, crit), PerCapita)
  {
  }

  /** The high-scarcity figure counts the dataset rows that pass the filter in
      the upper year with level "High". */
  lemma SummaryHighScarcity(data: seq<Observation>, crit: Criteria)
    requires |FilteredData(data, crit)| > 0
    ensures SummaryStats(data, crit).value.highScarcity == |Filter(data, HighInUpperYear(crit))|
  {
    HighScarcityDirect(data, crit);
  }

  /** The high-scarcity filter over the filtered rows is one filter over the dataset. */
  lemma HighScarcityDirect(data: seq<Observation>, crit: Criteria)
    ensures Filter(FilteredData(data, crit), HighAt(crit.yearTo)) == Filter(data, HighInUpperYear(crit))
  {
    FilterFilter(data, Matches(crit), HighAt(crit.yearTo), HighInUpperYear(crit));
  }

  /** Filtering on a scarcity level other than "High" leaves no high-scarcity row. */
  lemma SummaryHighScarcityUnderOtherLevel(data: seq<Observation>, crit: Criteria)
    requires crit.scarcity != AllLevels && crit.scarcity != HighLevel
    requires |FilteredData(data, crit)| > 0
    ensures SummaryStats(data, crit).value.highScarcity == 0
  {
    var filtered := FilteredData(data, crit);
    FilterNone(filtered, HighAt(crit.yearTo));
  }

  /** Rows in range but none in the upper year still give statistics, all zero
      except the country count. */
  lemma SummaryWithoutLatestRows(data: seq<Observation>, crit: Criteria)
    requires |FilteredData(data, crit)| > 0
    requires |LatestRows(data, crit)| == 0
    ensures SummaryStats(data, crit) == Some(Stats(0.0, 0.0, 0, |crit.selected|))
  {
    HighScarcityBound(data, crit);
  }
}

=== FILE: data_loader.dfy ===
/** The dataset index helpers: the chronological slice of one country's rows
    and the sorted list of distinct countries. */
module DataLoader {
  import opened Seqs
  import opened Sorting
  import opened Lexicographic
  import opened Observations

  /** Sorting rows by year yields non-decreasing years. */
  lemma SortByYearSorted(rows: seq<Observation>)
    ensures forall i, j :: 0 <= i < j < |Sort(rows, YearLt)| ==> Sort(rows, YearLt)[i].year <= Sort(rows, YearLt)[j].year
  {
    assert StrictWeakOrder(YearLt);
    SortSorted(rows, YearLt);
  }

  /** Sorting distinct strings yields a strictly ascending sequence. */
  lemma SortStringsStrict(names: seq<string>)
    requires NoDuplicates(names)
    ensures forall i, j :: 0 <= i < j < |Sort(names, StrLt)| ==> StrLt(Sort(names, StrLt)[i], Sort(names, StrLt)[j])
    ensures NoDuplicates(Sort(names, StrLt))
  {
    StrLtIsStrictWeakOrder();
    SortSorted(names, StrLt);
    SortNoDuplicates(names, StrLt);
    SortedDistinctIsStrict(Sort(names, StrLt), StrLt);
  }

  /** `getCountryData`: the rows of `country`, stably sorted by year. */
  function GetCountryData(data: seq<Observation>, country: string): (r: seq<Observation>)
    ensures forall i :: 0 <= i < |r| ==> r[i].country == country
    ensures forall i, j :: 0 <= i < j < |r| ==> r[i].year <= r[j].year
    ensures forall row :: multiset(r)[row] == if row.country == country then multiset(data)[row] else 0
  {
    var rows := Filter(data, CountryIs(country));
    SortByYearSorted(rows);
    SliceContents(data, country);
    Sort(rows, YearLt)
  }

  lemma SliceContents(data: seq<Observation>, country: string)
    ensures var r := Sort(Filter(data, CountryIs(country)), YearLt);
            && (forall i :: 0 <= i < |r| ==> r[i].country == country)
            && (forall row :: multiset(r)[row] == if row.country == country then multiset(data)[row] else 0)
  {
    var rows := Filter(data, CountryIs(country));
    var r := Sort(rows, YearLt);
    FilterMultiset(data, CountryIs(country));
    assert multiset(r) == multiset(rows);
    forall i | 0 <= i < |r|
      ensures r[i].country == country
    {
      assert r[i] in multiset(rows);
      assert r[i] in rows;
    }
  }

  /** Rows of equal year keep their original relative order. */
  lemma GetCountryDataStable(data: seq<Observation>, country: string, year: int)
    ensures Filter(GetCountryData(data, country), YearIs(year))
         == Filter(Filter(data, CountryIs(country)), YearIs(year))
  {
    SortStable(Filter(data, CountryIs(country)), YearLt, YearIs(year));
  }

  /** Re-slicing a slice returns it unchanged. */
  lemma GetCountryDataIdempotent(data: seq<Observation>, country: string)
    ensures GetCountryData(GetCountryData(data, country), country) == GetCountryData(data, country)
  {
    var r := GetCountryData(data, country);
    FilterAll(r, CountryIs(country));
    SortOfSorted(r, YearLt);
  }

  /** Every row of the country is in its slice. */
  lemma InSlice(data: seq<Observation>, country: string, row: Observation)
    requires row in data && row.country == country
    ensures row in GetCountryData(data, country)
  {
    var r := GetCountryData(data, country);
    assert row in multiset(data);
    assert multiset(r)[row] == multiset(data)[row];
    assert row in multiset(r);
  }

  /** The last row of a country's slice carries that country's latest year. */
  lemma GetCountryDataLastIsLatest(data: seq<Observation>, country: string)
    requires |GetCountryData(data, country)| > 0
    ensures var r := GetCountryData(data, country);
            forall row :: row in data && row.country == country ==> row.year <= r[|r| - 1].year
  {
    forall row | row in data && row.country == country
      ensures row.year <= GetCountryData(data, country)[|GetCountryData(data, country)| - 1].year
    {
      InSlice(data, country, row);
      NotAfterLast(GetCountryData(data, country), row);
    }
  }

  lemma NotAfterLast(r: seq<Observation>, row: Observation)
    requires row in r
    requires forall i, j :: 0 <= i < j < |r| ==> r[i].year <= r[j].year
    ensures row.year <= r[|r| - 1].year
  {
    var i :| 0 <= i < |r| && r[i] == row;
    if i < |r| - 1 {
      assert r[i].year <= r[|r| - 1].year;
    }
  }

  function Countries(data: seq<Observation>): (names: seq<string>)
    ensures forall c :: c in names <==> exists i :: 0 <= i < |data| && data[i].country == c
  {
    var names := seq(|data|, i requires 0 <= i < |data| => data[i].country);
    assert forall i :: 0 <= i < |data| ==> names[i] == data[i].country;
    names
  }

  /** `getAvailableCountries`: `Array.from(new Set(countries)).sort()`. */
  function GetAvailableCountries(data: seq<Observation>): (r: seq<string>)
    ensures forall i, j :: 0 <= i < j < |r| ==> StrLt(r[i], r[j])
    ensures forall i, j :: 0 <= i < j < |r| ==> r[i] != r[j]
    ensures forall c :: c in r <==> exists i :: 0 <= i < |data| && data[i].country == c
  {
    var names := Countries(data);
    var unique := Distinct(names);
    SortStringsStrict(unique);
    var r := Sort(unique, StrLt);
    forall c
      ensures c in r <==> exists i :: 0 <= i < |data| && data[i].country == c
    {
      assert c in r <==> c in multiset(r);
      assert c in unique <==> c in multiset(unique);
      assert c in unique <==> c in names;
    }
    r
  }
}

=== FILE: forecast.dfy ===
/** Forecast-series assembly for the prediction page: the country's history,
    a baseline point, one predicted point per future year, and the growth
    rates of the three models at the target year. */
module Forecast {
  import opened Wrappers
  import opened Observations
  import DataLoader
  import Seqs
  import Sorting

  /** The three model outputs the prediction service returns for one year. */
  datatype Prediction = Prediction(lasso: real, knn: real, ridge: real)

  /** The prediction service as a function of country and year; `None` is a
      request that failed (network error, non-success status). */
  type Predictor = (string, int) -> Option<Prediction>

  datatype PredictedPoint = PredictedPoint(year: int, prediction: Prediction)

  /** One chart entry; `None` is the `null` that keeps every entry's field set equal. */
  datatype ChartPoint = ChartPoint(
    year: int,
    consumption: Option<real>,
    lasso: Option<real>,
    knn: Option<real>,
    ridge: Option<real>
  )

  datatype ForecastSeries = ForecastSeries(
    historical: seq<ChartPoint>,
    future: seq<ChartPoint>,
    baselineYear: int,
    current: real,
    predicted: Prediction
  )

  /** How `handlePredict` can end without storing a series: it returns early
      when nothing is selected or the dataset is not loaded, reports a country
      without rows, and reports any exception raised during assembly. */
  datatype AssemblyError = NotReady | NoHistory | AssemblyFailed

  /** The years requested from the service: `baselineYear + i + 1` for
      `i` in `0 .. targetYear - baselineYear`, none when that count is not positive. */
  function RequestedYears(baselineYear: int, targetYear: int): (ys: seq<int>)
    ensures |ys| == if targetYear > baselineYear then targetYear - baselineYear else 0
    ensures forall i :: 0 <= i < |ys| ==> ys[i] == baselineYear + 1 + i
    ensures forall y :: y in ys <==> baselineYear < y <= targetYear
  {
    var n := if targetYear > baselineYear then targetYear - baselineYear else 0;
    var ys := seq(n, i requires 0 <= i < n => baselineYear + 1 + i);
    forall y | baselineYear < y <= targetYear
      ensures y in ys
    {
      assert ys[y - baselineYear - 1] == y;
    }
    ys
  }

  /** `Promise.all` over one request per year: the results in request order,
      whatever order they complete in, or failure as soon as one request fails. */
  function PredictAll(predict: Predictor, country: string, years: seq<int>): (r: Option<seq<PredictedPoint>>)
    ensures r.Some? <==> forall i :: 0 <= i < |years| ==> predict(country, years[i]).Some?
    ensures r.Some? ==> |r.value| == |years|
    ensures r.Some? ==> forall i :: 0 <= i < |years| ==>
              r.value[i] == PredictedPoint(years[i], predict(country, years[i]).value)
  {
    if |years| == 0 then Some([])
    else
      match predict(country, years[0])
      case None => None
      case Some(p) =>
        match PredictAll(predict, country, years[1..])
        case None => None
        case Some(rest) => Some([PredictedPoint(years[0], p)] + rest)
  }

  function HistoricalPoint(row: Observation): ChartPoint {
    ChartPoint(row.year, Some(row.totalConsumption), None, None, None)
  }

  /** The synthetic first forecast point: all three models equal the baseline. */
  function BaselinePoint(year: int, value: real): ChartPoint {
    ChartPoint(year, None, Some(value), Some(value), Some(value))
  }

  function FuturePoint(p: PredictedPoint): ChartPoint {
    ChartPoint(p.year, None, Some(p.prediction.lasso), Some(p.prediction.knn), Some(p.prediction.ridge))
  }

  /** The series built from a non-empty history and the predictions. */
  function BuildSeries(history: seq<Observation>, predicted: seq<PredictedPoint>): (s: ForecastSeries)
    requires |history| > 0 && |predicted| > 0
    ensures |s.historical| == |history| && |s.future| == |predicted| + 1
    ensures forall i :: 0 <= i < |history| ==> s.historical[i] == HistoricalPoint(history[i])
    ensures s.baselineYear == history[|history| - 1].year && s.current == history[|history| - 1].totalConsumption
    ensures s.predicted == predicted[|predicted| - 1].prediction
    ensures s.future[0] == BaselinePoint(s.baselineYear, s.current)
    ensures forall i :: 1 <= i < |s.future| ==> s.future[i] == FuturePoint(predicted[i - 1])
  {
    var latest := history[|history| - 1];
    ForecastSeries(
      seq(|history|, i requires 0 <= i < |history| => HistoricalPoint(history[i])),
      [BaselinePoint(latest.year, latest.totalConsumption)]
        + seq(|predicted|, i requires 0 <= i < |predicted| => FuturePoint(predicted[i])),
      latest.year,
      latest.totalConsumption,
      predicted[|predicted| - 1].prediction)
  }

  /** `handlePredict`. With no year after the baseline nothing is requested,
      the list of predictions is empty, and reading the last one's `lasso`
      throws, so that case ends in the error path too. */
  function HandlePredict(data: seq<Observation>, country: string, targetYear: int, predict: Predictor)
    : (r: Result<ForecastSeries, AssemblyError>)
    ensures r == Failure(NotReady) <==> country == "" || |data| == 0
    ensures r == Failure(NoHistory) <==>
              country != "" && |data| > 0 && forall i :: 0 <= i < |data| ==> data[i].country != country
    ensures r.Success? ==> |r.value.future| == targetYear - r.value.baselineYear + 1 >= 2
    ensures r.Success? ==> predict(country, targetYear) == Some(r.value.predicted)
  {
    if country == "" || |data| == 0 then Failure(NotReady)
    else
      var history := DataLoader.GetCountryData(data, country);
      NoRowsMeansNoHistory(data, country);
      if |history| == 0 then Failure(NoHistory)
      else
        var baselineYear := history[|history| - 1].year;
        var years := RequestedYears(baselineYear, targetYear);
        match PredictAll(predict, country, years)
        case None => Failure(AssemblyFailed)
        case Some(predicted) =>
          if |predicted| == 0 then Failure(AssemblyFailed)
          else
            PredictedLast(predict, country, baselineYear, targetYear);
            Success(BuildSeries(history, predicted))
  }

  /** A non-empty complete set of predictions covers every year up to the
      target, and its last point is the service's answer for the target year. */
  lemma PredictedLast(predict: Predictor, country: string, baselineYear: int, targetYear: int)
    requires PredictAll(predict, country, RequestedYears(baselineYear, targetYear)).Some?
    requires |PredictAll(predict, country, RequestedYears(baselineYear, targetYear)).value| > 0
    ensures var predicted := PredictAll(predict, country, RequestedYears(baselineYear, targetYear)).value;
            && |predicted| == targetYear - baselineYear
            && predict(country, targetYear) == Some(predicted[|predicted| - 1].prediction)
  {
    var years := RequestedYears(baselineYear, targetYear);
    assert years[|years| - 1] == targetYear;
  }

  /** A country's slice is empty exactly when no row has that country. */
  lemma NoRowsMeansNoHistory(data: seq<Observation>, country: string)
    ensures |DataLoader.GetCountryData(data, country)| == 0 <==> forall i :: 0 <= i < |data| ==> data[i].country != country
  {
    var history := DataLoader.GetCountryData(data, country);
    if exists i :: 0 <= i < |data| && data[i].country == country {
      var i :| 0 <= i < |data| && data[i].country == country;
      assert data[i] in multiset(data);
      assert multiset(history)[data[i]] > 0;
    }
    if |history| > 0 {
      assert history[0] in multiset(history);
      assert history[0] in multiset(data);
    }
  }

  /** A successful assembly is the series built from the country's slice and
      the predictions for the years after its last row. */
  lemma SuccessIsBuilt(data: seq<Observation>, country: string, targetYear: int, predict: Predictor)
    ensures HandlePredict(data, country, targetYear, predict).Success? ==>
            var history := DataLoader.GetCountryData(data, country);
            && |history| > 0
            && var years := RequestedYears(history[|history| - 1].year, targetYear);
               && PredictAll(predict, country, years).Some?
               && |PredictAll(predict, country, years).value| > 0
               && HandlePredict(data, country, targetYear, predict).value
                  == BuildSeries(history, PredictAll(predict, country, years).value)
  {
    if HandlePredict(data, country, targetYear, predict).Success? {
      NoRowsMeansNoHistory(data, country);
      var history := DataLoader.GetCountryData(data, country);
      assert country != "" && |data| > 0 && |history| > 0;
    }
  }

  /** The history of a successful assembly: one point per row of the
      country's slice, same order, consumption set and the models null; the
      baseline is the slice's last row, which holds the country's latest year. */
  lemma HandlePredictHistory(data: seq<Observation>, country: string, targetYear: int, predict: Predictor)
    ensures HandlePredict(data, country, targetYear, predict).Success? ==>
            var s := HandlePredict(data, country, targetYear, predict).value;
            var history := DataLoader.GetCountryData(data, country);
            && |history| > 0
            && |s.historical| == |history|
            && (forall i :: 0 <= i < |history| ==>
                  s.historical[i] == ChartPoint(history[i].year, Some(history[i].totalConsumption), None, None, None))
            && s.baselineYear == history[|history| - 1].year
            && s.current == history[|history| - 1].totalConsumption
            && (forall row :: row in data && row.country == country ==> row.year <= s.baselineYear)
  {
    if HandlePredict(data, country, targetYear, predict).Success? {
      SuccessIsBuilt(data, country, targetYear, predict);
      DataLoader.GetCountryDataLastIsLatest(data, country);
    }
  }

  /** The forecast arm of a successful assembly: the baseline point first,
      then one point per following year carrying the service's three values
      for that year, every point with a null consumption. */
  lemma HandlePredictFuture(data: seq<Observation>, country: string, targetYear: int, predict: Predictor)
    ensures HandlePredict(data, country, targetYear, predict).Success? ==>
            var s := HandlePredict(data, country, targetYear, predict).value;
            && s.future[0] == ChartPoint(s.baselineYear, None, Some(s.current), Some(s.current), Some(s.current))
            && (forall i :: 0 <= i < |s.future| ==> s.future[i].year == s.baselineYear + i && s.future[i].consumption.None?)
            && (forall i :: 1 <= i < |s.future| ==>
                  s.future[i].lasso.Some? && s.future[i].knn.Some? && s.future[i].ridge.Some? &&
                  predict(country, s.future[i].year) ==
                    Some(Prediction(s.future[i].lasso.value, s.future[i].knn.value, s.future[i].ridge.value)))
  {
    if HandlePredict(data, country, targetYear, predict).Success? {
      SuccessIsBuilt(data, country, targetYear, predict);
      var history := DataLoader.GetCountryData(data, country);
      var base := history[|history| - 1].year;
      PredictedYears(predict, country, base, targetYear);
      FutureArm(history, PredictAll(predict, country, RequestedYears(base, targetYear)).value, country, predict);
    }
  }

  /** Each point of a complete set of predictions is the service's answer
      for the year its position names. */
  lemma PredictedYears(predict: Predictor, country: string, baselineYear: int, targetYear: int)
    requires PredictAll(predict, country, RequestedYears(baselineYear, targetYear)).Some?
    ensures var predicted := PredictAll(predict, country, RequestedYears(baselineYear, targetYear)).value;
            forall i :: 0 <= i < |predicted| ==>
              predicted[i].year == baselineYear + 1 + i &&
              predict(country, predicted[i].year) == Some(predicted[i].prediction)
  {
    var years := RequestedYears(baselineYear, targetYear);
    var predicted := PredictAll(predict, country, years).value;
    forall i | 0 <= i < |predicted|
      ensures predicted[i].year == baselineYear + 1 + i
      ensures predict(country, predicted[i].year) == Some(predicted[i].prediction)
    {
      assert years[i] == baselineYear + 1 + i;
    }
  }

  lemma FutureArm(history: seq<Observation>, predicted: seq<PredictedPoint>, country: string, predict: Predictor)
    requires |history| > 0 && |predicted| > 0
    requires forall i :: 0 <= i < |predicted| ==>
               predicted[i].year == history[|history| - 1].year + 1 + i &&
               predict(country, predicted[i].year) == Some(predicted[i].prediction)
    ensures var s := BuildSeries(history, predicted);
            && s.future[0] == ChartPoint(s.baselineYear, None, Some(s.current), Some(s.current), Some(s.current))
            && (forall i :: 0 <= i < |s.future| ==> s.future[i].year == s.baselineYear + i && s.future[i].consumption.None?)
            && (forall i :: 1 <= i < |s.future| ==>
                  s.future[i].lasso.Some? && s.future[i].knn.Some? && s.future[i].ridge.Some? &&
                  predict(country, s.future[i].year) ==
                    Some(Prediction(s.future[i].lasso.value, s.future[i].knn.value, s.future[i].ridge.value)))
  {
    var s := BuildSeries(history, predicted);
    forall i | 1 <= i < |s.future|
      ensures s.future[i] == FuturePoint(predicted[i - 1])
      ensures s.future[i].year == s.baselineYear + i
    {
    }
  }

  /** The assembly succeeds exactly when the country has rows, the target
      year lies after the baseline year, and every requested year is predicted. */
  lemma HandlePredictSucceeds(data: seq<Observation>, country: string, targetYear: int, predict: Predictor)
    requires country != ""
    requires |DataLoader.GetCountryData(data, country)| > 0
    ensures var history := DataLoader.GetCountryData(data, country);
            var baselineYear := history[|history| - 1].year;
            HandlePredict(data, country, targetYear, predict).Success? <==>
              targetYear > baselineYear && forall y :: baselineYear < y <= targetYear ==> predict(country, y).Some?
  {
    var history := DataLoader.GetCountryData(data, country);
    assert history[0] in multiset(history);
    var baselineYear := history[|history| - 1].year;
    var years := RequestedYears(baselineYear, targetYear);
    if forall y :: baselineYear < y <= targetYear ==> predict(country, y).Some? {
      assert forall i :: 0 <= i < |years| ==> years[i] in years;
    }
    if PredictAll(predict, country, years).Some? {
      forall y | baselineYear < y <= targetYear
        ensures predict(country, y).Some?
      {
        assert years[y - baselineYear - 1] == y;
      }
    }
  }

  /** One failed request aborts the whole assembly: no partial series is stored. */
  lemma FailedRequestAborts(data: seq<Observation>, country: string, targetYear: int, predict: Predictor, y: int)
    requires country != ""
    requires |DataLoader.GetCountryData(data, country)| > 0
    requires var history := DataLoader.GetCountryData(data, country);
             history[|history| - 1].year < y <= targetYear
    requires predict(country, y).None?
    ensures HandlePredict(data, country, targetYear, predict) == Failure(AssemblyFailed)
  {
    HandlePredictSucceeds(data, country, targetYear, predict);
    assert data != [] by {
      assert |DataLoader.GetCountryData(data, country)| <= |data|;
    }
  }

  /** A target year not after the baseline year ends in the error path. */
  lemma TargetNotAfterBaselineFails(data: seq<Observation>, country: string, targetYear: int, predict: Predictor)
    requires country != ""
    requires |DataLoader.GetCountryData(data, country)| > 0
    requires var history := DataLoader.GetCountryData(data, country);
             targetYear <= history[|history| - 1].year
    ensures HandlePredict(data, country, targetYear, predict) == Failure(AssemblyFailed)
  {
    HandlePredictSucceeds(data, country, targetYear, predict);
    assert data != [] by {
      assert |DataLoader.GetCountryData(data, country)| <= |data|;
    }
  }

  /** `((predicted - current) / current) * 100`, for a non-zero baseline.
      Applying the rate to the baseline gives back the prediction. */
  function GrowthRate(predicted: real, current: real): (g: real)
    requires current != 0.0
    ensures current + current * g / 100.0 == predicted
    ensures current > 0.0 ==> (g > 0.0 <==> predicted > current)
    ensures g == 0.0 <==> predicted == current
  {
    (predicted - current) / current * 100.0
  }

  datatype Growth = Growth(lasso: real, knn: real, ridge: real)

  /** The three growth rates shown under the chart. */
  function GrowthRates(s: ForecastSeries): (g: Growth)
    requires s.current != 0.0
    ensures s.current + s.current * g.lasso / 100.0 == s.predicted.lasso
    ensures s.current + s.current * g.knn / 100.0 == s.predicted.knn
    ensures s.current + s.current * g.ridge / 100.0 == s.predicted.ridge
  {
    Growth(
      GrowthRate(s.predicted.lasso, s.current),
      GrowthRate(s.predicted.knn, s.current),
      GrowthRate(s.predicted.ridge, s.current))
  }

  function TestlandRow(year: int, consumption: real): Observation {
    Observation(year, "Testland", 0, 0.0, consumption, 0.0, 0.0, 0.0, 0.0, 0.0, 0.0, "Low", 0.0, 0.0, 0.0, "TST")
  }

  lemma TestlandHistory()
    ensures var data := [TestlandRow(2020, 100.0), TestlandRow(2021, 110.0)];
            DataLoader.GetCountryData(data, "Testland") == data
  {
    var a, b := TestlandRow(2020, 100.0), TestlandRow(2021, 110.0);
    var p := CountryIs("Testland");
    assert [a, b][1..] == [b];
    Seqs.FilterCons(a, [b], p);
    Seqs.FilterCons(b, [], p);
    assert Seqs.Filter([a, b], p) == [a, b];
    assert Sorting.Sort([b], YearLt) == [b];
    assert Sorting.Sort([a, b], YearLt) == Sorting.Insert(a, [b], YearLt) == [a, b];
  }

  /** A prediction service that answers (120, 118, 121) for every year. */
  function TestlandService(): Predictor {
    (c: string, y: int) => Some(Prediction(120.0, 118.0, 121.0))
  }

  lemma TestlandPredictions()
    ensures PredictAll(TestlandService(), "Testland", RequestedYears(2021, 2023))
         == Some([PredictedPoint(2022, Prediction(120.0, 118.0, 121.0)), PredictedPoint(2023, Prediction(120.0, 118.0, 121.0))])
  {
    var p := Prediction(120.0, 118.0, 121.0);
    var years := RequestedYears(2021, 2023);
    assert years[0] == 2022 && years[1] == 2023;
    var service := TestlandService();
    assert service("Testland", 2022) == Some(p) && service("Testland", 2023) == Some(p);
    var r := PredictAll(service, "Testland", years);
    assert r.Some? && |r.value| == 2;
    assert r.value[0] == PredictedPoint(2022, p) && r.value[1] == PredictedPoint(2023, p);
    assert r.value == [PredictedPoint(2022, p), PredictedPoint(2023, p)];
  }

  /** Two rows for one country and a service answering (120, 118, 121) for
      every year: the forecast up to 2023 keeps both rows as history, starts
      the forecast at the 2021 baseline of 110, adds 2022 and 2023, and shows
      a LASSO growth of (120 - 110) / 110 * 100 per cent. */
  lemma TestlandForecast()
    ensures var data := [TestlandRow(2020, 100.0), TestlandRow(2021, 110.0)];
            var r := HandlePredict(data, "Testland", 2023, TestlandService());
            && r.Success?
            && |r.value.historical| == 2
            && r.value.baselineYear == 2021 && r.value.current == 110.0
            && |r.value.future| == 3
            && r.value.future[0] == BaselinePoint(2021, 110.0)
            && [r.value.future[1].year, r.value.future[2].year] == [2022, 2023]
            && r.value.predicted == Prediction(120.0, 118.0, 121.0)
            && GrowthRates(r.value).lasso == 1000.0 / 110.0
  {
    var data := [TestlandRow(2020, 100.0), TestlandRow(2021, 110.0)];
    var p := Prediction(120.0, 118.0, 121.0);
    var predicted := [PredictedPoint(2022, p), PredictedPoint(2023, p)];
    TestlandHistory();
    TestlandPredictions();
    var s := BuildSeries(data, predicted);
    assert HandlePredict(data, "Testland", 2023, TestlandService()) == Success(s);
    assert s.future[1] == FuturePoint(predicted[0]) && s.future[2] == FuturePoint(predicted[1]);
  }
}

=== FILE: lexicographic.dfy ===
/** The order `Array.prototype.sort()` uses when called without a comparator
    on strings: lexicographic by character, a proper prefix first. */
module Lexicographic {
  import opened Sorting

  predicate StrLt(a: string, b: string) {
    if |a| == 0 then |b| > 0
    else if |b| == 0 then false
    else if a[0] == b[0] then StrLt(a[1..], b[1..])
    else a[0] < b[0]
  }

  lemma {:induction false} StrLtIrreflexive(a: string)
    ensures !StrLt(a, a)
  {
    if |a| != 0 {
      StrLtIrreflexive(a[1..]);
    }
  }

  lemma {:induction false} StrLtTransitive(a: string, b: string, c: string)
    requires StrLt(a, b) && StrLt(b, c)
    ensures StrLt(a, c)
  {
    if |a| != 0 && |b| != 0 && |c| != 0 && a[0] == b[0] && b[0] == c[0] {
      StrLtTransitive(a[1..], b[1..], c[1..]);
    }
  }

  lemma {:induction false} StrLtAsymmetric(a: string, b: string)
    requires StrLt(a, b)
    ensures !StrLt(b, a)
  {
    if |a| != 0 && |b| != 0 && a[0] == b[0] {
      StrLtAsymmetric(a[1..], b[1..]);
    }
  }

  /** Two different strings are always ordered one way or the other. */
  lemma {:induction false} StrLtTotal(a: string, b: string)
    requires a != b
    ensures StrLt(a, b) || StrLt(b, a)
  {
    if |a| != 0 && |b| != 0 && a[0] == b[0] {
      assert a == [a[0]] + a[1..];
      assert b == [b[0]] + b[1..];
      StrLtTotal(a[1..], b[1..]);
    }
  }

  lemma StrLtIsStrictWeakOrder()
    ensures StrictWeakOrder(StrLt)
    ensures forall a, b :: a != b ==> StrLt(a, b) || StrLt(b, a)
  {
    forall a | true
      ensures !StrLt(a, a)
    {
      StrLtIrreflexive(a);
    }
    forall a, b, c | StrLt(a, b) && StrLt(b, c)
      ensures StrLt(a, c)
    {
      StrLtTransitive(a, b, c);
    }
    forall a, b | a != b
      ensures StrLt(a, b) || StrLt(b, a)
    {
      StrLtTotal(a, b);
    }
    forall a, b, c | !StrLt(a, b) && !StrLt(b, c)
      ensures !StrLt(a, c)
    {
      if a != b && b != c {
        StrLtTotal(a, b);
        StrLtTotal(b, c);
        StrLtTransitive(c, b, a);
        StrLtAsymmetric(c, a);
      }
    }
  }
}

=== FILE: observations.dfy ===
/** One row of the water-consumption dataset (`WaterConsumptionData`), and the
    row predicates and orders the rest of the model filters and sorts by. */
module Observations {

  /** Every column of the dataset's CSV header. Numeric columns are `real`
      except the year and the country code, which the data holds as integers;
      the scarcity level is kept as the text the CSV holds. */
  datatype Observation = Observation(
    year: int,
    country: string,
    countryCode: int,
    population: real,
    totalConsumption: real,        // billion cubic metres
    perCapitaUse: real,            // litres per day
    agriculturalPct: real,
    industrialPct: real,
    householdPct: real,
    precipitationMm: real,
    groundwaterDepletionPct: real,
    scarcityLevel: string,
    dams: real,
    reservoirCapacityTmc: real,
    industries: real,
    isoCode: string
  )

  function CountryIs(c: string): Observation -> bool {
    (row: Observation) => row.country == c
  }

  function YearIs(y: int): Observation -> bool {
    (row: Observation) => row.year == y
  }

  function Country(row: Observation): string {
    row.country
  }

  function Consumption(row: Observation): real {
    row.totalConsumption
  }

  function PerCapita(row: Observation): real {
    row.perCapitaUse
  }

  /** The comparator `(a, b) => a.Year - b.Year`, read as "a sorts before b". */
  predicate YearLt(a: Observation, b: Observation) {
    a.year < b.year
  }
}

=== FILE: selection.dfy ===
/** The dashboard's country selection: an ordered list of at most five
    distinct country names, changed by toggling, removing and two presets. */
module Selection {
  import opened Seqs
  import opened Observations
  import DataLoader
  import opened Lexicographic

  const MaxSelected: nat := 5
  const InitialCount: nat := 3

  /** The invariant every reachable selection satisfies. */
  ghost predicate Valid(sel: seq<string>) {
    |sel| <= MaxSelected && NoDuplicates(sel)
  }

  function IsNot(c: string): string -> bool {
    x => x != c
  }

  /** JavaScript's `slice(0, n)`, which clamps `n` to the length. */
  function Take<T>(s: seq<T>, n: nat): (r: seq<T>)
    ensures |r| == if n < |s| then n else |s|
    ensures r <= s
    ensures forall x :: x in r ==> x in s
  {
    if n < |s| then
      assert forall i :: 0 <= i < n ==> s[..n][i] == s[i];
      s[..n]
    else s
  }

  /** `removeCountry`: drop `c` and keep the rest in order. */
  function Remove(sel: seq<string>, c: string): (r: seq<string>)
    ensures c !in r
    ensures forall x :: x != c ==> (x in r <==> x in sel)
    ensures |r| <= |sel|
    ensures c !in sel ==> r == sel
    ensures NoDuplicates(sel) ==> NoDuplicates(r)
    ensures NoDuplicates(sel) ==> forall i :: 0 <= i < |sel| && sel[i] == c ==> r == sel[..i] + sel[i + 1..]
  {
    var r := Filter(sel, IsNot(c));
    if c !in sel then
      FilterAll(sel, IsNot(c));
      r
    else
      FilterMultiset(sel, IsNot(c));
      assert NoDuplicates(sel) ==> NoDuplicates(r) by {
        if NoDuplicates(sel) {
          NoDuplicatesMultiset(sel);
          NoDuplicatesMultiset(r);
        }
      }
      forall i | 0 <= i < |sel| && NoDuplicates(sel) && sel[i] == c
        ensures r == sel[..i] + sel[i + 1..]
      {
        FilterOutAt(sel, i);
      }
      r
  }

  /** A sequence has no duplicates exactly when no element occurs twice in its multiset. */
  lemma {:induction false} NoDuplicatesMultiset<T>(s: seq<T>)
    ensures NoDuplicates(s) <==> forall x :: multiset(s)[x] <= 1
  {
    if |s| != 0 {
      var t := s[1..];
      assert s == [s[0]] + t;
      NoDuplicatesMultiset(t);
      if NoDuplicates(s) {
        assert NoDuplicates(t);
        assert s[0] !in t;
      }
      assert multiset(s) == multiset{s[0]} + multiset(t);
      if forall x :: multiset(s)[x] <= 1 {
        assert forall x :: multiset(t)[x] <= multiset(s)[x];
        assert s[0] !in multiset(t);
        forall i, j | 0 <= i < j < |s|
          ensures s[i] != s[j]
        {
          if i > 0 {
            assert s[i] == t[i - 1] && s[j] == t[j - 1];
          } else {
            assert s[j] in t;
          }
        }
      }
    }
  }

  /** Filtering out an element of a duplicate-free sequence takes out exactly
      its one position. */
  lemma FilterOutAt(sel: seq<string>, i: nat)
    requires NoDuplicates(sel)
    requires i < |sel|
    ensures Filter(sel, IsNot(sel[i])) == sel[..i] + sel[i + 1..]
  {
    var c, a, b := sel[i], sel[..i], sel[i + 1..];
    assert sel == a + [c] + b;
    assert c !in a by {
      forall k | 0 <= k < |a|
        ensures a[k] != c
      {
        assert a[k] == sel[k];
      }
    }
    assert c !in b by {
      forall k | 0 <= k < |b|
        ensures b[k] != c
      {
        assert b[k] == sel[i + 1 + k];
      }
    }
    FilterOutOne(a, c, b);
  }

  lemma FilterOutOne(a: seq<string>, c: string, b: seq<string>)
    requires c !in a && c !in b
    ensures Filter(a + [c] + b, IsNot(c)) == a + b
  {
    var p := IsNot(c);
    forall k | 0 <= k < |a|
      ensures p(a[k])
    {
      assert a[k] in a;
    }
    forall k | 0 <= k < |b|
      ensures p(b[k])
    {
      assert b[k] in b;
    }
    FilterAll(a, p);
    FilterAll(b, p);
    FilterCons(c, [], p);
    assert [c] + [] == [c];
    assert Filter([c], p) == [];
    FilterConcat(a, [c], p);
    assert a + [] == a;
    assert Filter(a + [c], p) == a;
    FilterConcat(a + [c], b, p);
  }

  /** `toggleCountry`. */
  function Toggle(sel: seq<string>, c: string): (r: seq<string>)
    ensures Valid(sel) ==> Valid(r)
    ensures c in r <==> c !in sel && |sel| < MaxSelected
    ensures forall x :: x != c ==> (x in r <==> x in sel)
    ensures |sel| >= MaxSelected && c !in sel ==> r == sel
  {
    if c in sel then Remove(sel, c)
    else if |sel| < MaxSelected then sel + [c]
    else sel
  }

  /** The three cases of a toggle on a valid selection. */
  lemma ToggleCases(sel: seq<string>, c: string)
    requires Valid(sel)
    ensures forall i :: 0 <= i < |sel| && sel[i] == c ==> Toggle(sel, c) == sel[..i] + sel[i + 1..]
    ensures c !in sel && |sel| < MaxSelected ==> Toggle(sel, c)[..|sel|] == sel && Toggle(sel, c)[|sel|] == c
    ensures c !in sel && |sel| == MaxSelected ==> Toggle(sel, c) == sel
  {
  }

  /** Adding then toggling again gives back the selection. */
  lemma ToggleUndoesAdd(sel: seq<string>, c: string)
    requires c !in sel && |sel| < MaxSelected
    ensures Toggle(Toggle(sel, c), c) == sel
  {
    FilterConcat(sel, [c], IsNot(c));
    FilterAll(sel, IsNot(c));
    FilterCons(c, [], IsNot(c));
  }

  /** The first `n` available countries are the `n` alphabetically smallest:
      each of them sorts before every available country left out, and only a
      full preset leaves any out. */
  function FirstCountries(data: seq<Observation>, n: nat): (r: seq<string>)
    requires n <= MaxSelected
    ensures Valid(r) && |r| <= n
    ensures forall i, j :: 0 <= i < j < |r| ==> StrLt(r[i], r[j])
    ensures forall c :: c in r ==> exists i :: 0 <= i < |data| && data[i].country == c
    ensures forall c :: (exists i :: 0 <= i < |data| && data[i].country == c) && c !in r ==> |r| == n
    ensures forall x, y :: x in r && y !in r && (exists i :: 0 <= i < |data| && data[i].country == y) ==> StrLt(x, y)
  {
    var avail := DataLoader.GetAvailableCountries(data);
    var r := Take(avail, n);
    forall x, y | x in r && y !in r && (exists i :: 0 <= i < |data| && data[i].country == y)
      ensures StrLt(x, y)
    {
      var i :| 0 <= i < |r| && r[i] == x;
      assert y in avail;
      var j :| 0 <= j < |avail| && avail[j] == y;
      assert avail[i] == x;
      assert forall k :: 0 <= k < |r| ==> r[k] == avail[k];
      assert i < |r| <= j;
    }
    forall i, j | 0 <= i < j < |r|
      ensures StrLt(r[i], r[j]) && r[i] != r[j]
    {
      assert r[i] == avail[i] && r[j] == avail[j];
    }
    r
  }

  /** The selection made when the dataset loads: the first three countries. */
  function InitialSelection(data: seq<Observation>): (r: seq<string>)
    ensures Valid(r) && |r| <= InitialCount
    ensures forall i, j :: 0 <= i < j < |r| ==> StrLt(r[i], r[j])
    ensures forall c :: c in r ==> exists i :: 0 <= i < |data| && data[i].country == c
    ensures forall c :: (exists i :: 0 <= i < |data| && data[i].country == c) && c !in r ==> |r| == InitialCount
    ensures forall x, y :: x in r && y !in r && (exists i :: 0 <= i < |data| && data[i].country == y) ==> StrLt(x, y)
  {
    FirstCountries(data, InitialCount)
  }

  /** "Select Top 5": the five alphabetically first countries, or all of them. */
  function SelectTop5(data: seq<Observation>): (r: seq<string>)
    ensures Valid(r)
    ensures forall i, j :: 0 <= i < j < |r| ==> StrLt(r[i], r[j])
    ensures forall c :: c in r ==> exists i :: 0 <= i < |data| && data[i].country == c
    ensures forall c :: (exists i :: 0 <= i < |data| && data[i].country == c) && c !in r ==> |r| == MaxSelected
    ensures forall x, y :: x in r && y !in r && (exists i :: 0 <= i < |data| && data[i].country == y) ==> StrLt(x, y)
  {
    FirstCountries(data, MaxSelected)
  }

  /** "Clear All". */
  function ClearAll(): (r: seq<string>)
    ensures Valid(r)
    ensures forall c :: c !in r
  {
    []
  }
}

=== FILE: seqs.dfy ===
/** Sequence combinators standing for the JavaScript array methods the
    dashboard code uses: `filter`, deduplication through `new Set(...)`, a
    keyed fold into an object where later writes overwrite earlier ones,
    `reduce` with `+`, and `Math.max(...)`. */
module Seqs {

  /** `Array.prototype.filter`: the elements satisfying `p`, in their original order. */
  function Filter<T(!new)>(s: seq<T>, p: T -> bool): (r: seq<T>)
    ensures |r| <= |s|
    ensures forall i :: 0 <= i < |r| ==> p(r[i])
    ensures forall x :: x in r <==> x in s && p(x)
  {
    if |s| == 0 then []
    else (if p(s[0]) then [s[0]] else []) + Filter(s[1..], p)
  }

  /** One unfolding step of `Filter` on a sequence with a known head. */
  lemma FilterCons<T(!new)>(x: T, s: seq<T>, p: T -> bool)
    ensures Filter([x] + s, p) == (if p(x) then [x] else []) + Filter(s, p)
  {
    assert ([x] + s)[1..] == s;
  }

  /** Filtering distributes over concatenation, which is what keeps the original order. */
  lemma {:induction false} FilterConcat<T(!new)>(a: seq<T>, b: seq<T>, p: T -> bool)
    ensures Filter(a + b, p) == Filter(a, p) + Filter(b, p)
  {
    if |a| == 0 {
      assert a + b == b;
    } else {
      assert (a + b)[1..] == a[1..] + b;
      FilterConcat(a[1..], b, p);
    }
  }

  /** Filtering a sequence whose every element passes returns it unchanged. */
  lemma {:induction false} FilterAll<T(!new)>(s: seq<T>, p: T -> bool)
    requires forall i :: 0 <= i < |s| ==> p(s[i])
    ensures Filter(s, p) == s
  {
    if |s| != 0 {
      FilterAll(s[1..], p);
    }
  }

  /** Filtering with a predicate no element satisfies returns nothing. */
  lemma {:induction false} FilterNone<T(!new)>(s: seq<T>, p: T -> bool)
    requires forall i :: 0 <= i < |s| ==> !p(s[i])
    ensures Filter(s, p) == []
  {
    if |s| != 0 {
      FilterNone(s[1..], p);
    }
  }

  /** Two filters in a row are one filter by the conjunction. */
  lemma {:induction false} FilterFilter<T(!new)>(s: seq<T>, p: T -> bool, q: T -> bool, both: T -> bool)
    requires forall x :: both(x) == (p(x) && q(x))
    ensures Filter(Filter(s, p), q) == Filter(s, both)
  {
    if |s| != 0 {
      FilterFilter(s[1..], p, q, both);
      if p(s[0]) {
        FilterConcat([s[0]], Filter(s[1..], p), q);
        assert [s[0]][1..] == [];
        assert Filter([s[0]], q) == (if q(s[0]) then [s[0]] else []) + Filter([], q);
      } else {
        assert Filter(s, p) == Filter(s[1..], p);
      }
    }
  }

  /** A filter by a stronger predicate keeps no more elements than one by a weaker predicate. */
  lemma {:induction false} FilterMonotone<T(!new)>(s: seq<T>, p: T -> bool, q: T -> bool)
    requires forall x :: p(x) ==> q(x)
    ensures |Filter(s, p)| <= |Filter(s, q)|
  {
    if |s| != 0 {
      FilterMonotone(s[1..], p, q);
    }
  }

  /** Filtering only counts: an element occurs as often as in `s` if it passes, else never. */
  lemma {:induction false} FilterMultiset<T(!new)>(s: seq<T>, p: T -> bool)
    ensures forall x :: multiset(Filter(s, p))[x] == if p(x) then multiset(s)[x] else 0
  {
    if |s| != 0 {
      FilterMultiset(s[1..], p);
      assert s == [s[0]] + s[1..];
    }
  }

  ghost predicate NoDuplicates<T>(s: seq<T>) {
    forall i, j :: 0 <= i < j < |s| ==> s[i] != s[j]
  }

  /** `Array.from(new Set(s))`: each value once, in order of first occurrence. */
  function Distinct<T(==,!new)>(s: seq<T>): (r: seq<T>)
    ensures NoDuplicates(r)
    ensures forall x :: x in r <==> x in s
  {
    if |s| == 0 then []
    else
      var prefix := Distinct(s[..|s| - 1]);
      assert forall x :: x in s <==> x in s[..|s| - 1] || x == s[|s| - 1] by {
        assert s == s[..|s| - 1] + [s[|s| - 1]];
      }
      if s[|s| - 1] in prefix then prefix else prefix + [s[|s| - 1]]
  }

  /** A keyed fold: for each element in order, `m[key(x)] := val(x)`. */
  function LastWins<T, K, V>(s: seq<T>, key: T -> K, val: T -> V): map<K, V> {
    if |s| == 0 then map[]
    else LastWins(s[..|s| - 1], key, val)[key(s[|s| - 1]) := val(s[|s| - 1])]
  }

  /** The keys of the fold are exactly the keys of the elements, and the value
      kept for a key is the one of the LAST element carrying it. */
  lemma {:induction false} LastWinsSpec<T, K(!new), V>(s: seq<T>, key: T -> K, val: T -> V)
    ensures forall k :: k in LastWins(s, key, val) <==> exists i :: 0 <= i < |s| && key(s[i]) == k
    ensures forall i :: 0 <= i < |s| && (forall j :: i < j < |s| ==> key(s[j]) != key(s[i]))
              ==> LastWins(s, key, val)[key(s[i])] == val(s[i])
    ensures forall k :: k in LastWins(s, key, val) ==>
              exists i :: 0 <= i < |s| && key(s[i]) == k && LastWins(s, key, val)[k] == val(s[i])
  {
    if |s| != 0 {
      var n := |s| - 1;
      var prefix := s[..n];
      LastWinsSpec(prefix, key, val);
      var m := LastWins(s, key, val);
      forall k
        ensures k in m <==> exists i :: 0 <= i < |s| && key(s[i]) == k
      {
        if k in m && k != key(s[n]) {
          assert k in LastWins(prefix, key, val);
          var i :| 0 <= i < n && key(prefix[i]) == k;
          assert key(s[i]) == k;
        }
        if exists i :: 0 <= i < |s| && key(s[i]) == k {
          var i :| 0 <= i < |s| && key(s[i]) == k;
          if i < n {
            assert key(prefix[i]) == k;
          }
        }
      }
      forall k | k in m
        ensures exists i :: 0 <= i < |s| && key(s[i]) == k && m[k] == val(s[i])
      {
        if k != key(s[n]) {
          assert k in LastWins(prefix, key, val);
          var i :| 0 <= i < n && key(prefix[i]) == k && m[k] == val(prefix[i]);
          assert key(s[i]) == k && m[k] == val(s[i]);
        } else {
          assert key(s[n]) == k && m[k] == val(s[n]);
        }
      }
      forall i | 0 <= i < |s| && (forall j :: i < j < |s| ==> key(s[j]) != key(s[i]))
        ensures m[key(s[i])] == val(s[i])
      {
        if i < n {
          assert key(prefix[i]) == key(s[i]);
          assert forall j :: i < j < n ==> key(prefix[j]) != key(prefix[i]);
        }
      }
    }
  }

  /** Folding one more element in is one more map update. */
  lemma LastWinsSnoc<T, K, V>(s: seq<T>, x: T, key: T -> K, val: T -> V)
    ensures LastWins(s + [x], key, val) == LastWins(s, key, val)[key(x) := val(x)]
  {
    assert (s + [x])[..|s|] == s;
  }

  /** Folding only the elements that pass `p`: the value kept for the key of
      a passing element is its own when no later passing element shares the key. */
  lemma {:induction false} LastWinsOfFilter<T(!new), K, V>(s: seq<T>, p: T -> bool, key: T -> K, val: T -> V, k: nat)
    requires k < |s| && p(s[k])
    requires forall j :: k < j < |s| && p(s[j]) ==> key(s[j]) != key(s[k])
    ensures key(s[k]) in LastWins(Filter(s, p), key, val)
    ensures LastWins(Filter(s, p), key, val)[key(s[k])] == val(s[k])
  {
    var n := |s| - 1;
    var prefix := s[..n];
    var z := s[n];
    assert s == prefix + [z];
    FilterConcat(prefix, [z], p);
    FilterCons(z, [], p);
    if p(z) {
      LastWinsSnoc(Filter(prefix, p), z, key, val);
    } else {
      assert Filter(s, p) == Filter(prefix, p);
    }
    if k < n {
      LastWinsOfFilter(prefix, p, key, val, k);
    }
  }

  /** The keys of a fold over the passing elements are the keys of the passing elements. */
  lemma LastWinsOfFilterKeys<T(!new), K(!new), V>(s: seq<T>, p: T -> bool, key: T -> K, val: T -> V, k: K)
    ensures k in LastWins(Filter(s, p), key, val) <==> exists j :: 0 <= j < |s| && p(s[j]) && key(s[j]) == k
  {
    var r := Filter(s, p);
    LastWinsSpec(r, key, val);
    if k in LastWins(r, key, val) {
      var m :| 0 <= m < |r| && key(r[m]) == k;
      assert r[m] in r;
      var j :| 0 <= j < |s| && s[j] == r[m];
    }
    if exists j :: 0 <= j < |s| && p(s[j]) && key(s[j]) == k {
      var j :| 0 <= j < |s| && p(s[j]) && key(s[j]) == k;
      assert s[j] in s;
      assert s[j] in r;
      var m :| 0 <= m < |r| && r[m] == s[j];
    }
  }

  /** `reduce((sum, x) => sum + f(x), 0)`. */
  function Sum<T>(s: seq<T>, f: T -> real): real {
    if |s| == 0 then 0.0 else f(s[0]) + Sum(s[1..], f)
  }

  /** `Math.max(...s)` on a non-empty sequence: an upper bound that is attained. */
  function MaxOf(s: seq<real>): (r: real)
    requires |s| > 0
    ensures forall i :: 0 <= i < |s| ==> s[i] <= r
    ensures exists i :: 0 <= i < |s| && s[i] == r
  {
    if |s| == 1 then s[0]
    else
      var rest := MaxOf(s[1..]);
      if s[0] >= rest then s[0] else rest
  }
}

=== FILE: sorting.dfy ===
/** `Array.prototype.sort(compare)`, which the language specification has
    required to be stable since ES2019, modelled as a stable insertion sort
    over a strict "less than" relation. Any two stable sorts by a strict weak
    order produce the same output, so this one stands for the engine's. */
module Sorting {
  import opened Seqs

  /** `lt` is a strict weak order: irreflexive, transitive, and "neither
      less" is transitive too (ties form equivalence classes). */
  ghost predicate StrictWeakOrder<T(!new)>(lt: (T, T) -> bool) {
    && (forall a :: !lt(a, a))
    && (forall a, b, c :: lt(a, b) && lt(b, c) ==> lt(a, c))
    && (forall a, b, c :: !lt(a, b) && !lt(b, c) ==> !lt(a, c))
  }

  /** No element is strictly less than one before it. */
  ghost predicate Sorted<T>(s: seq<T>, lt: (T, T) -> bool) {
    forall i, j :: 0 <= i < j < |s| ==> !lt(s[j], s[i])
  }

  /** Places `x` in front of the first element that is not less than it. */
  function Insert<T>(x: T, s: seq<T>, lt: (T, T) -> bool): (r: seq<T>)
    ensures multiset(r) == multiset(s) + multiset{x}
  {
    if |s| == 0 then [x]
    else if lt(s[0], x) then
      assert s == [s[0]] + s[1..];
      [s[0]] + Insert(x, s[1..], lt)
    else [x] + s
  }

  function Sort<T>(s: seq<T>, lt: (T, T) -> bool): (r: seq<T>)
    ensures multiset(r) == multiset(s)
  {
    if |s| == 0 then []
    else
      assert s == [s[0]] + s[1..];
      Insert(s[0], Sort(s[1..], lt), lt)
  }

  lemma {:induction false} InsertSorted<T(!new)>(x: T, s: seq<T>, lt: (T, T) -> bool)
    requires StrictWeakOrder(lt)
    requires Sorted(s, lt)
    ensures Sorted(Insert(x, s, lt), lt)
  {
    if |s| != 0 {
      var r := Insert(x, s, lt);
      if lt(s[0], x) {
        InsertSorted(x, s[1..], lt);
        var tail := Insert(x, s[1..], lt);
        assert r == [s[0]] + tail;
        forall k | 0 <= k < |tail|
          ensures !lt(tail[k], s[0])
        {
          assert tail[k] in multiset(tail);
          if tail[k] != x {
            assert tail[k] in s[1..];
          }
        }
      } else {
        assert r == [x] + s;
        forall k | 0 <= k < |s|
          ensures !lt(s[k], x)
        {
          if k > 0 {
            assert !lt(s[k], s[0]);
          }
        }
      }
    }
  }

  /** The output of `Sort` is sorted. */
  lemma {:induction false} SortSorted<T(!new)>(s: seq<T>, lt: (T, T) -> bool)
    requires StrictWeakOrder(lt)
    ensures Sorted(Sort(s, lt), lt)
  {
    if |s| != 0 {
      SortSorted(s[1..], lt);
      InsertSorted(s[0], Sort(s[1..], lt), lt);
    }
  }

  /** Stability: if `q` only ever selects mutually tied elements, the elements
      selected by `q` come out of `Sort` in their original relative order. */
  lemma {:induction false} InsertStable<T(!new)>(x: T, s: seq<T>, lt: (T, T) -> bool, q: T -> bool)
    requires forall a, b :: q(a) && q(b) ==> !lt(a, b)
    ensures Filter(Insert(x, s, lt), q) == (if q(x) then [x] else []) + Filter(s, q)
  {
    if |s| != 0 {
      var head := s[0];
      var rest := s[1..];
      assert s == [head] + rest;
      if lt(head, x) {
        var tail := Insert(x, rest, lt);
        assert Insert(x, s, lt) == [head] + tail;
        InsertStable(x, rest, lt, q);
        FilterCons(head, tail, q);
        FilterCons(head, rest, q);
        if q(x) {
          assert !q(head);
          assert Filter(Insert(x, s, lt), q) == Filter(tail, q);
          assert Filter(s, q) == Filter(rest, q);
        } else {
          assert Filter(tail, q) == Filter(rest, q);
        }
      } else {
        assert Insert(x, s, lt) == [x] + s;
        FilterCons(x, s, q);
      }
    }
  }

  lemma {:induction false} SortStable<T(!new)>(s: seq<T>, lt: (T, T) -> bool, q: T -> bool)
    requires forall a, b :: q(a) && q(b) ==> !lt(a, b)
    ensures Filter(Sort(s, lt), q) == Filter(s, q)
  {
    if |s| != 0 {
      SortStable(s[1..], lt, q);
      InsertStable(s[0], Sort(s[1..], lt), lt, q);
    }
  }

  /** Sorting an already sorted sequence changes nothing. */
  lemma {:induction false} SortOfSorted<T>(s: seq<T>, lt: (T, T) -> bool)
    requires Sorted(s, lt)
    ensures Sort(s, lt) == s
  {
    if |s| != 0 {
      assert Sorted(s[1..], lt);
      SortOfSorted(s[1..], lt);
      assert s == [s[0]] + s[1..];
      if |s| > 1 {
        assert !lt(s[1], s[0]);
      }
    }
  }

  /** Sorting never introduces a duplicate. */
  lemma {:induction false} SortNoDuplicates<T(!new)>(s: seq<T>, lt: (T, T) -> bool)
    requires NoDuplicates(s)
    ensures NoDuplicates(Sort(s, lt))
  {
    if |s| != 0 {
      assert s == [s[0]] + s[1..];
      SortNoDuplicates(s[1..], lt);
      var t := Sort(s[1..], lt);
      assert s[0] !in multiset(t);
      InsertNoDuplicates(s[0], t, lt);
    }
  }

  lemma {:induction false} InsertNoDuplicates<T>(x: T, s: seq<T>, lt: (T, T) -> bool)
    requires NoDuplicates(s)
    requires x !in s
    ensures NoDuplicates(Insert(x, s, lt))
  {
    if |s| != 0 && lt(s[0], x) {
      InsertNoDuplicates(x, s[1..], lt);
      var tail := Insert(x, s[1..], lt);
      forall k | 0 <= k < |tail|
        ensures tail[k] != s[0]
      {
        assert tail[k] in multiset(tail);
        if tail[k] != x {
          assert tail[k] in s[1..];
        }
      }
    }
  }

  /** In a sorted sequence without duplicates, under an order where distinct
      values are never tied, every element is strictly less than the later ones. */
  lemma SortedDistinctIsStrict<T>(s: seq<T>, lt: (T, T) -> bool)
    requires Sorted(s, lt)
    requires NoDuplicates(s)
    requires forall a, b :: a != b ==> lt(a, b) || lt(b, a)
    ensures forall i, j :: 0 <= i < j < |s| ==> lt(s[i], s[j])
  {
  }
}

=== FILE: wrappers.dfy ===
/** Option and Result: `Option` stands for a JavaScript value that may be
    `null`/`undefined`, `Result` for an operation that either produces a value
    or ends in the prediction page's `catch` branch or one of its early returns. */
module Wrappers {

  datatype Option<+T> = None | Some(value: T)

  datatype Result<+R, +E> = Success(value: R) | Failure(error: E)
}
